=== FILE: README.md ===
# link-lens analyzer, modelled in Dafny

link-lens analyses one web page. It fetches the page and reads the HTML
version, the title, the heading counts and the set of links. It then
classifies every link as internal or external. Each link that is not an
anchor is resolved against the page URL and probed over HTTP, and the
invalid ones are collected in sorted order. This project models the
`analyzer` package's sequential logic:

- `urls.dfy` (utils.go):
  - `concatUrl`, the three href classifiers and `getFinalUrl`.
  - The base-URL pattern `(?i)(https?://[^/]+)/?`, as a hand-written
    leftmost search.
  - The outcome rule of `findUrlValidity`.
- `extract.dfy` (analyze.go):
  - The pre-parse gate on status and content type.
  - The token loop of `fetchUrlContent`, `processToken` and `processText`.
  - The tokenizer's output is an input sequence of tokens.
  - The doctype pattern `(?i)HTML\s+[4]` and the heading pattern
    `(?i)h\d`, hand-written.
- `extract_facts.dfy`: what a whole run of the token loop computes, field by
  field.
- `crawler.dfy` (crawler.go): `crawl`, `crawlForValidity` and `crawlUrl`.
  - Ranging over the link map is an input enumeration `order`.
  - The goroutines' completion order is an input `completion`, any
    rearrangement of the probe outcomes.
  - The HTTP request of a probe is an oracle `fetch` returning a status code,
    or `None` when the request fails.
  - Both the crawl as written, which can hang, and a corrected crawl are
    modelled.
- `analysis.dfy` (analyze.go): `AnalyzeUrl`.
  - Whether `url.Parse` accepts the URL is an input.
  - So is the HTTP response, as status, content type and tokens.
- `types.dfy` (types.go): the result record, its defaults, and the page-type
  constants.
- `strings.dfy`, `sorting.dfy`, `results.dfy`: supporting pieces.
  - The string functions of Go's `strings` package that the code uses.
  - Go's string order and `slices.Sort`.
  - `Option` and `Result`.

Go's `(?i)` flag uses Unicode simple case folding. So the `s` of `https`
also matches U+017F (long s), and a `k` would also match U+212A (Kelvin
sign). `Strings.FoldsTo` states both.

## Model

| member | source | states |
|---|---|---|
| Urls.ConcatUrl | analyzer/utils.go:14-29 | an empty path gives the base unchanged; otherwise the result is the base without one trailing slash, one slash, and the path without one leading slash, so one slash is dropped when both parts bring one and one is inserted when neither does; the result always starts with the base |
| Urls.ConcatEmptyPathExamples | analyzer/utils_test.go:16-21 | the empty-path cases, including `("", "")`, keep the base |
| Urls.ConcatJoinExamples | analyzer/utils_test.go:17-19 | the three joining cases all give `www.a.com/x/y/z` |
| Urls.ClassifiersByCharacter | analyzer/utils.go:31-48 | an anchor starts with `#`, a site-relative href starts with `/`, an absolute href contains `://` somewhere; no href is both an anchor and site-relative |
| Urls.FirstMatch | analyzer/utils.go:10 | the leftmost start index at or after `i` where the base pattern matches, or none when it matches nowhere after `i` |
| Urls.BaseMatch | analyzer/utils.go:10 | the base pattern's submatch is absent exactly when the pattern matches at no index of the string |
| Urls.BaseMatchGroup | analyzer/utils.go:10 | group 1 is the leftmost match extended to the next slash or the end, with no slash after `://` and no trailing slash |
| Urls.MatchSurvivesAppend | analyzer/utils.go:10 | appending text to a string never removes its base match |
| Urls.GetFinalUrl | analyzer/utils.go:52-89 | resolution fails exactly when the page URL has no http(s) base, or when a non-empty href contains `://` but has no http(s) base of its own |
| Urls.SourceCheckedFirst | analyzer/utils.go:53-60 | a page URL without a base fails whatever the href: `EmptySource` for `""`, `InvalidBase` otherwise |
| Urls.AbsoluteHrefVerbatim | analyzer/utils.go:66-72 | an href with `://` is returned verbatim when it has its own http(s) base, rejected otherwise, and the answer does not depend on which valid page URL it came from |
| Urls.EmptyAndAnchorHrefs | analyzer/utils.go:62-75 | against a valid page URL, the empty href is the page itself and an anchor without `://` is appended to the page URL as it stands |
| Urls.SiteRelativeUsesOrigin | analyzer/utils.go:77-81 | a site-relative href is appended to the scheme and host of the page URL |
| Urls.PathRelativeResolution | analyzer/utils.go:83-88 | a path-relative href replaces what follows the last slash of the page URL when that slash is single; when it is the second of a pair, the href is joined onto the whole page URL with one slash |
| Urls.ResolvedIsHttpUrl | analyzer/utils.go:52-89 | every successfully resolved URL has an http(s) base and ends with the href it came from |
| Urls.LastSlashFacts | analyzer/utils.go:83-85 | on a valid page URL the last slash is at index 6 or later, and `dpos < pos-1` holds exactly when the character before the last slash is not a slash |
| Urls.LastPairBeforeLastSlash | analyzer/utils.go:83-84 | the last `//` of any string starts before its last `/` |
| Urls.EmptyOnOpening | analyzer/utils.go:62-64 | the empty href resolves to any page URL opening with `http(s)://host` |
| Urls.AnchorOnOpening | analyzer/utils.go:73-75 | an anchor without a colon is appended verbatim to such a page URL |
| Urls.SiteRelativeOnOpening | analyzer/utils.go:77-81 | on an https page URL whose host runs to index `k`, a site-relative href is appended to `s[..k]` |
| Urls.ReplacesLastSegment | analyzer/utils.go:83-87 | a path-relative href replaces the last segment when the last slash is single |
| Urls.JoinsAfterPair | analyzer/utils.go:83-88 | a path-relative href is appended after one inserted slash when the last slash is the second of a pair and the URL does not end with it |
| Urls.AbsoluteOnOpening | analyzer/utils.go:66-72 | an href with `://` and a base match anywhere is returned as it is |
| Urls.RejectedOnOpening | analyzer/utils.go:66-71 | an href with `://` and no letter `h` is rejected |
| Urls.EmptyHrefExample | analyzer/utils_test.go:40 | `("", "https://www.a.com")` gives the page URL |
| Urls.AnchorExample | analyzer/utils_test.go:51 | `#anchor` on `https://www.a.com/x` gives `https://www.a.com/x#anchor` |
| Urls.SiteRelativeExample | analyzer/utils_test.go:55 | `/relurl1` on `https://www.a.com/x/y` gives `https://www.a.com/relurl1` |
| Urls.PathRelativeExample | analyzer/utils_test.go:53 | `relurl1` on `https://www.a.com/x/y` gives `https://www.a.com/x/relurl1` |
| Urls.BareOriginExample | analyzer/utils_test.go:54 | `relurl1` on `https://www.a.com` gives `https://www.a.com/relurl1` |
| Urls.AbsoluteHrefExample | analyzer/utils_test.go:47 | `https://www.a.com` on `https://www.b.com/x` is kept as it is |
| Urls.NonHttpSourceExample | analyzer/utils_test.go:42 | an `ftp://` page URL is an error |
| Urls.NonHttpHrefExample | analyzer/utils_test.go:45 | a `ws://` href is an error |
| Urls.EmbeddedHttpPassesSchemeCheck | analyzer/utils.go:66-72 | the scheme check is unanchored: `ftp://a.com/?to=http://b.com` is returned verbatim |
| Urls.DoubleSlashInPathAppends | analyzer/utils.go:83-88 | a `//` inside the path makes a path-relative href append (`http://a.com/b//c` + `x` gives `http://a.com/b//c/x`) instead of replacing `c` |
| Urls.FindUrlValidity | analyzer/utils.go:94-107 | a probe is valid exactly when the request succeeded with a status below 300; the status is the response's, or 999 when the request failed |
| Extract.SkipSpaces | analyzer/analyze.go:72 | the greedy `\s+` stops at the first character that is not one of `\t\n\f\r ` |
| Extract.FindHtml4 | analyzer/analyze.go:72 | the search from `i` succeeds exactly when some `html`, in any case, at or after `i` is followed by one or more white-space characters and a `4` |
| Extract.MatchesHtml4 | analyzer/analyze.go:71-79 | a doctype text matches exactly when the pattern occurs somewhere in it |
| Extract.FirstHref | analyzer/analyze.go:98-104 | the value of the first attribute whose lower-cased key is `href`, or none exactly when no attribute has that key |
| Extract.ProcessToken | analyzer/analyze.go:92-111 | an open `title` only opens the slot; otherwise a heading name increments exactly the count under its upper-cased name; otherwise an `a` adds its first href to the link set; any other open tag changes nothing; every end tag clears the slot and nothing else |
| Extract.ProcessText | analyzer/analyze.go:113-117 | the title becomes the text exactly when the slot is `title`; nothing else changes |
| Extract.Step | analyzer/analyze.go:71-88 | a doctype sets the version to "4" exactly when it matches and otherwise changes nothing; comments and stop tokens change nothing; no token touches the page URL, link statistics or page type |
| Extract.FirstStop | analyzer/analyze.go:61-69 | the first end-of-input or error token, or the length when there is none |
| Extract.Scan | analyzer/analyze.go:61-89 | the loop fails exactly when the first stop token is an error, with that error's reason; on success the state is every token before the stop applied in order |
| Extract.Gate | analyzer/analyze.go:48-55 | a status of 300 or more is refused first with that status; then a content type that does not contain `text/html` once lower-cased is refused; nothing else is |
| Extract.FetchUrlContent | analyzer/analyze.go:40-90 | a failed request fails; a refused gate fails with the gate's error; otherwise the fetch succeeds exactly when the tokens do not stop at an error, with the tokens before the stop applied to a fresh parsing state |
| Extract.RunCons | analyzer/analyze.go:61-89 | running tokens with one in front is stepping that one first |
| ExtractFacts.StepEffect | analyzer/analyze.go:81-88 | one token's effect on the capture slot, the title and the link set |
| ExtractFacts.StepHeading | analyzer/analyze.go:96-97 | one token adds one to the count under `k` exactly when it is a heading tag upper-casing to `k` |
| ExtractFacts.DispatchExclusive | analyzer/analyze.go:93-105 | an open tag changes at most one of the capture slot, the heading counts and the link set |
| ExtractFacts.RunKeeps | analyzer/analyze.go:61-89 | the token loop never changes the page URL, the link statistics, the page type or the input-type counts |
| ExtractFacts.HtmlVersionOfRun | analyzer/analyze.go:71-79 | after a run the version is "4" exactly when some doctype token matches, and otherwise is what it was; once "4" it is never reset |
| ExtractFacts.LinksOfRun | analyzer/analyze.go:98-104 | the link set gains exactly the first hrefs of the `a` tags; repeats are kept once |
| ExtractFacts.HeadingsOfRun | analyzer/analyze.go:96-97 | each count grows by the number of heading tags upper-casing to its key; a key appears exactly when such a tag was seen; `hr` and the like leave the counts alone |
| ExtractFacts.SlotOfRun | analyzer/analyze.go:94-95 | after a run the slot is `title` exactly when some open `title` tag is followed by no end tag, or the slot was open and no end tag came |
| ExtractFacts.TitleOfRun | analyzer/analyze.go:113-117 | the title is the text of the last token captured while the slot was open, or unchanged when none was |
| ExtractFacts.TitleIsLastCapture | analyzer/analyze.go:113-117 | the title after a run is the content of `LastCapture`, or unchanged when it is -1 |
| ExtractFacts.NoTitleTagNoTitle | analyzer/analyze.go:94-95 | a page without a `title` tag keeps the empty title of a fresh analysis |
| ExtractFacts.Html4DoctypeExample | analyzer/analyze_test.go:215 | the HTML 4.0 Transitional doctype matches the HTML 4 pattern |
| ExtractFacts.Html5DoctypeExample | analyzer/analyze_test.go:223 | the bare `html` doctype does not |
| ExtractFacts.HeadingNameExamples | analyzer/analyze_test.go:180-199 | `h1`, `H3` and `h6` are headings counted under the upper-cased name; `hr`, `title` and `a` are not |
| Crawler.CountLinks | analyzer/crawler.go:15-21 | every href is counted once, as external when it contains `://` and internal otherwise; the invalid fields are zero |
| Crawler.LinkCounts | analyzer/crawler.go:15-21 | whatever the ranging order, the external count is the number of distinct hrefs naming a scheme, the internal count that of the others, and together they count every href |
| Crawler.LinkTypesExample | analyzer/analyze_test.go:82-85 | a site-relative, a path-relative, an anchor and an absolute href give three internal links and one external link |
| Crawler.ProbeLink | analyzer/crawler.go:62-67 | a probe of a resolvable href checks the resolved URL and reports the outcome rule of `findUrlValidity` for the oracle's answer; an unresolvable href checks `""` and is reported invalid with status 999 |
| Crawler.UnresolvableIsInvalid | analyzer/crawler.go:63-64 | an href that cannot be resolved is reported as `("", invalid, 999)` whatever the oracle answers |
| Crawler.Probed | analyzer/crawler.go:32-42 | a probe is spawned for exactly the hrefs that are not anchors |
| Crawler.OneProbePerHref | analyzer/crawler.go:32-42 | exactly one probe per distinct non-anchor href, none for anchors |
| Crawler.ProbeAllPermutation | analyzer/crawler.go:32-42 | probing the same hrefs in another order gives the same outcomes in another order |
| Crawler.InvalidUrlsMembers | analyzer/crawler.go:47-51 | a URL is collected exactly when some outcome reporting invalid carries it |
| Crawler.InvalidUrlsPermutation | analyzer/crawler.go:44-56 | the collected URLs, as a multiset, do not depend on the arrival order |
| Crawler.Receive | analyzer/crawler.go:44-56 | the loop closes after exactly `max(count, 1)` outcomes when that many arrive, having counted and appended the invalid ones, and blocks otherwise; internal and external counts are untouched |
| Crawler.CrawlForValidityAsWritten | analyzer/crawler.go:27-60 | the validity pass as written hangs exactly when no probe is spawned |
| Crawler.CrawlAsWritten | analyzer/crawler.go:8-25 | an empty link set returns the record untouched; the crawl as written hangs exactly when the set is non-empty and every href is an anchor |
| Crawler.CrawlForValidity | analyzer/crawler.go:27-60 | only the link statistics change; internal and external counts are kept; the invalid count grows by the number of invalid outcomes; the invalid list gains exactly their URLs and is sorted |
| Crawler.Crawl | analyzer/crawler.go:8-25 | an empty link set returns the record untouched; only the link statistics ever change |
| Crawler.CrawlStats | analyzer/crawler.go:8-58 | after crawling a non-empty set: the counts are those of the set, the invalid count is the length of the invalid list, and the list is sorted and holds exactly the URLs of the invalid outcomes |
| Crawler.CrawlIgnoresOrder | analyzer/crawler.go:15-58 | the crawl gives the same result for every ranging order and every completion order |
| Crawler.AsWrittenAgrees | analyzer/crawler.go:8-60 | when some href is not an anchor, the crawl as written finishes with the corrected result |
| Crawler.AnchorOnlyPageHangs | analyzer/crawler.go:44-56 | a page whose only link is `#top` never finishes as written; the corrected crawl counts one internal link and no invalid ones |
| Crawler.InvalidLinksMembers | analyzer/crawler.go:44-66 | a URL is listed invalid exactly when some distinct non-anchor href of the page resolves to it and its probe is invalid |
| Sorting.Insert | analyzer/crawler.go:58 | inserting into a sorted list keeps it sorted and adds exactly one element |
| Sorting.SortStrings | analyzer/crawler.go:58 | the result is sorted and a permutation of the input |
| Sorting.SortedUnique | analyzer/crawler.go:58 | two sorted lists with the same elements are equal, so the sorted invalid list does not depend on arrival order |
| Sorting.SortIgnoresOrder | analyzer/crawler.go:58 | permutations of one another sort to the same list |
| Types.NewAnalysis | analyzer/types.go:33-40 | a fresh record has the given URL, version "5", no title, no headings, zero link statistics and no page type |
| Types.IdentifiesSource | analyzer/types.go:29-31 | the identifier of an analysis is its URL, so analyses of different URLs have different identifiers |
| Types.PageTypeOf | analyzer/analyze_test.go:293-363 | the page type is one of the two constants, and is `LoginForm` exactly when there is one password input and one submit input |
| Types.PageTypeExamples | analyzer/analyze_test.go:358-362 | the five login-form test pages: only one password and one submit make a login form |
| Analysis.AnalyzeUrl | analyzer/analyze.go:18-38 | a URL that does not parse is an error; a failed fetch is returned as the error; otherwise the result is identified by the URL and has page type `Unknown`; the links go through the corrected crawl, so an anchor-only page finishes where the source hangs |
| Analysis.AnalyzeUrlAgainstSource | analyzer/analyze.go:32 | after a successful extraction the analysis always succeeds; when the crawl as written finishes, the analysis reports exactly its result with page type `Unknown`; the crawl as written hangs exactly on a non-empty, all-anchor link set |
| Analysis.FinishedIsCrawl | analyzer/crawler.go:29-58 | whenever the validity pass as written finishes, it finishes with the result of the corrected crawl |
| Analysis.AnalysisResult | analyzer/analyze.go:18-38 | a successful analysis reports the version, title, heading counts (keyed by exactly the headings seen) and link counts of the tokens before the stop, and a sorted, counted invalid list holding exactly the URLs of the invalid probe outcomes |

## Left out

- HTTP requests: the page fetch and each probe request are inputs (`response`, `fetch`), not modelled.
- The `golang.org/x/net/html` tokenizer: its token sequence is an input, with tag names as it delivers them.
- Goroutines and the channel: the probes' completion order is an input that is any rearrangement of the outcomes.
- Ranging over a Go map: the order is an input enumeration of the link set. `crawl` and `crawlForValidity` each range the map, possibly in different orders; one enumeration stands for both. `Crawler.CrawlIgnoresOrder` shows the result does not depend on it.
- `url.Parse` in `AnalyzeUrl`: whether it accepts the URL is an input.
- Logging: it has no effect on results.
- errors.go: `analyze.go` never builds these errors. The error messages are not modelled, only which error occurs.
- The server, command-line and web front end: these are not part of this model.
- Strings.Lower: lower-cases ASCII letters only, while Go's `strings.ToLower` covers all of Unicode. This suffices for `href` and `text/html`, because no other character lower-cases to their letters.
- Strings.Upper: upper-cases ASCII letters only, so a heading name with non-ASCII letters is counted under a key that Go would spell differently.
- The page-type heuristic: `AnalyzeUrl` always sets `Unknown` and never counts inputs. The login-form rule the tests expect is therefore the standalone `Types.PageTypeOf`, not part of `AnalyzeUrl`.
- `AnalyzeUrl` calls `Crawl(info)` and the test calls it with a crawler argument, but `crawl` takes the parsing state. The model passes the link set of the extraction.
- `info.allLinks`: `analyze.go` writes the link set into the result, but `types.go` keeps it in the parsing state. The model keeps it in the parsing state.
- The link map is never created: neither `parsingState{}` (analyze.go:59) nor `NewAnalysis` makes it, so `allLinks` is a nil map. Any reading of analyze.go:101 that compiles would panic with "assignment to entry in nil map" on the first `<a href>`. The model starts from an empty set instead (`Types.EmptyParsing`), because analyze_test.go:106-110 expects the links to be counted.
- `LinkStats`: `types.go` declares integer fields other than the ones the crawler and tests use. The model uses the crawler's fields: two counts, an invalid count and a list of invalid URLs.
- Failed resolution in a probe: `crawlUrl` binds `getFinalUrl`'s two results to one name. The model reads this as binding the zero value `""`. Go's `http.Get("")` fails on the missing scheme before any network access, so the probe reports `(false, 999)` without consulting the oracle.
- Probe requests as a function of the URL: `fetch` is one fixed function of the resolved URL, so two hrefs that resolve to the same URL always get the same outcome. `crawlUrl` sends one independent `http.Get` per href, which could see different answers. No proved property depends on this.
- Token streams without a stop: the tokenizer always ends its stream with an error token (`io.EOF` or a read error). `Extract.Scan` reads a sequence with neither `Eof` nor `Err` as ending in `Eof`, a case the source never meets.
- Analysis.AnalyzeUrl: composes the corrected `Crawler.Crawl`, so on a page whose links are all anchors it finishes with no invalid links, where the source's `crawl` (analyze.go:32, crawler.go:44-56) waits forever. `Analysis.AnalyzeUrlAgainstSource` shows it agrees with the crawl as written everywhere else.
- Byte strings: Go strings are byte sequences and may hold invalid UTF-8, for example an href or title taken from raw page bytes. The model's strings are sequences of Unicode scalar values, so such inputs cannot be expressed. The `slices.Sort` order is modelled as code-point order, which equals Go's byte order only on valid UTF-8.
- Unit tests that expect `getFinalUrl` to panic: these are modelled as returning an error.
- The two-slash test of path-relative resolution: a `//` anywhere in the page URL's path counts against the last slash. The model follows the code (`DoubleSlashInPathAppends`), not a per-segment reading.

## Findings

| source | as written | input that shows it | evidently intended | confidence | as-written member | corrected member |
|---|---|---|---|---|---|---|
| analyzer/crawler.go:44-56 | the receive loop only closes the channel after receiving an outcome, so when no probe was spawned it waits forever | a page whose only link is `#top` | a page with no link to probe finishes with no invalid links | not executed | Crawler.CrawlAsWritten, Crawler.AnchorOnlyPageHangs | Crawler.Crawl, Crawler.AsWrittenAgrees |

=== FILE: analysis.dfy ===
/** The entry point of the analyzer: parse the URL, fetch and extract the
    page, crawl its links, and fix the page type. Whether the URL parses,
    what the request returns, how the link set is ranged over, what each
    probe request returns and in which order the probes complete are all
    inputs. */
module Analysis {
  import opened Results
  import opened Types
  import opened Extract
  import opened ExtractFacts
  import opened Crawler
  import opened Sorting

  /** The ways an analysis fails: the URL does not parse, or the fetch of
      the page fails. */
  datatype AnalysisError = MalformedUrl | FetchError(cause: Extract.FetchError)

  /** The extraction of `url` that the analysis starts with; the token loop
      never changes the page URL it was started with. */
  function Extraction(url: string, response: Option<Response>): (r: Result<State, Extract.FetchError>)
    ensures r.Success? ==> r.value.info.sourceUrl == url
  {
    var r := FetchUrlContent(NewAnalysis(url), response);
    if r.Success? then
      RunKeeps(State(NewAnalysis(url), EmptyParsing), response.value.body[..FirstStop(response.value.body)]);
      r
    else r
  }

  /** The crawl inputs fit the extracted page: `order` ranges over its link
      set and `completion` is an arrival order of its probe outcomes. */
  predicate Schedule(url: string, response: Option<Response>, order: seq<string>,
                     fetch: string -> Option<int>, completion: seq<LinkStatus>) {
    Extraction(url, response).Success? ==>
      && IsEnumeration(order, Extraction(url, response).value.parsing.allLinks)
      && Arrives(completion, order, url, fetch)
  }

  /** Analysing one page. The page type is always `Unknown`. The links are
      crawled by the corrected `Crawl`, so a page whose links are all
      anchors is analysed to the end here, where the source's crawl waits
      forever (`AnalyzeUrlAgainstSource`). */
  function AnalyzeUrl(url: string, urlParses: bool, response: Option<Response>, order: seq<string>,
                      fetch: string -> Option<int>, completion: seq<LinkStatus>): (r: Result<AnalysisData, AnalysisError>)
    requires Schedule(url, response, order, fetch, completion)
    ensures !urlParses ==> r == Failure(MalformedUrl)
    ensures urlParses && Extraction(url, response).Failure? ==> r == Failure(FetchError(Extraction(url, response).error))
    ensures r.Success? <==> urlParses && Extraction(url, response).Success?
    ensures r.Success? ==> r.value.ID() == url && r.value.pageType == Unknown
  {
    if !urlParses then Failure(MalformedUrl)
    else
      match Extraction(url, response)
      case Failure(e) => Failure(FetchError(e))
      case Success(st) =>
        RunKeeps(State(NewAnalysis(url), EmptyParsing), response.value.body[..FirstStop(response.value.body)]);
        var crawled := Crawl(st.info, st.parsing.allLinks, order, fetch, completion);
        Success(crawled.(pageType := Unknown))
  }

  /** What a successful analysis reports, in terms of the tokens before the
      end of input: the version is "4" exactly when a doctype matches the
      HTML 4 pattern and "5" otherwise; the title is the last captured
      text, or empty; each heading count is the number of heading tags
      upper-casing to its key; the links are the first hrefs of the `a`
      tags, counted as internal or external; the invalid links are sorted,
      counted, and exactly those of the invalid probe outcomes. */
  lemma AnalysisResult(url: string, response: Option<Response>, order: seq<string>,
                       fetch: string -> Option<int>, completion: seq<LinkStatus>)
    requires Schedule(url, response, order, fetch, completion)
    requires Extraction(url, response).Success?
    ensures var ts := response.value.body[..FirstStop(response.value.body)];
      var r := AnalyzeUrl(url, true, response, order, fetch, completion).value;
      var st := State(NewAnalysis(url), EmptyParsing);
      && r.sourceUrl == url
      && r.htmlVersion == (if exists i :: 0 <= i < |ts| && IsHtml4Token(ts[i]) then "4" else "5")
      && ((forall i :: !Captured(st, ts, i)) ==> r.title == "")
      && (forall i :: Captured(st, ts, i) && (forall m :: i < m ==> !Captured(st, ts, m)) ==> r.title == ts[i].content)
      && (forall k :: Count(r.headingsCount, k) == |HeadingPositions(ts, k)|)
      && (forall k :: k in r.headingsCount <==> HeadingPositions(ts, k) != {})
      && r.linkStats.externalLinkCount == |ExternalLinks(LinksIn(ts))|
      && r.linkStats.internalLinkCount == |InternalLinks(LinksIn(ts))|
      && r.linkStats.invalidLinkCount == |r.linkStats.invalidLinks|
      && Sorted(r.linkStats.invalidLinks)
      && multiset(r.linkStats.invalidLinks) == multiset(InvalidUrls(Probes(order, url, fetch)))
  {
    var ts := response.value.body[..FirstStop(response.value.body)];
    var st := State(NewAnalysis(url), EmptyParsing);
    var ex := Run(st, ts);
    assert Extraction(url, response).value == ex;
    HtmlVersionOfRun(st, ts);
    TitleOfRun(st, ts);
    HeadingsOfRun(st, ts);
    LinksOfRun(st, ts);
    RunKeeps(st, ts);
    var links := ex.parsing.allLinks;
    assert links == LinksIn(ts);
    if links == {} {
      assert ExternalLinks(links) == {} && InternalLinks(links) == {};
    } else {
      CrawlStats(ex.info, links, order, fetch, completion);
    }
  }

  /** How the analysis relates to the source's own crawl: whenever the
      crawl as written finishes, the analysis reports what it finished
      with; the crawl as written hangs exactly on a non-empty page whose
      links are all anchors, and there the analysis still succeeds. */
  lemma AnalyzeUrlAgainstSource(url: string, response: Option<Response>, order: seq<string>,
                                fetch: string -> Option<int>, completion: seq<LinkStatus>)
    requires Schedule(url, response, order, fetch, completion)
    requires Extraction(url, response).Success?
    ensures var st := Extraction(url, response).value;
      var asWritten := CrawlAsWritten(st.info, st.parsing.allLinks, order, fetch, completion);
      && AnalyzeUrl(url, true, response, order, fetch, completion).Success?
      && (asWritten.Finished? ==>
            AnalyzeUrl(url, true, response, order, fetch, completion) == Success(asWritten.info.(pageType := Unknown)))
      && (asWritten.Hangs? <==> st.parsing.allLinks != {} && NonAnchors(st.parsing.allLinks) == {})
  {
    var st := Extraction(url, response).value;
    var links := st.parsing.allLinks;
    assert AnalyzeUrl(url, true, response, order, fetch, completion)
        == Success(Crawl(st.info, links, order, fetch, completion).(pageType := Unknown));
    FinishedIsCrawl(st.info, links, order, fetch, completion);
  }

  /** Whenever the crawl as written finishes, it finishes with the result of
      the corrected crawl. */
  lemma FinishedIsCrawl(info: AnalysisData, links: set<string>, order: seq<string>,
                        fetch: string -> Option<int>, completion: seq<LinkStatus>)
    requires IsEnumeration(order, links)
    requires Arrives(completion, order, info.sourceUrl, fetch)
    ensures CrawlAsWritten(info, links, order, fetch, completion).Finished? ==>
              CrawlAsWritten(info, links, order, fetch, completion).info == Crawl(info, links, order, fetch, completion)
  {
    if NonAnchors(links) != {} {
      AsWrittenAgrees(info, links, order, fetch, completion);
    }
  }
}

=== FILE: crawler.dfy ===
/** The crawl that follows extraction: counting the distinct hrefs as
    internal or external, probing every href that is not an anchor, and
    collecting the invalid ones. The probes run concurrently and report over
    a channel in the source; here the completion order is an input, any
    rearrangement of the probe outcomes, and the collector is a sequential
    fold over it. The HTTP request of a probe is the oracle `fetch`, which
    returns the status code or `None` when the request fails. */
module Crawler {
  import opened Results
  import opened Types
  import opened Urls
  import opened Sorting
  import opened Strings

  /* ---------------------------------------------------------------- */
  /* Enumerating the link set                                          */
  /* ---------------------------------------------------------------- */

  /** `order` lists every element of `links` exactly once, as ranging over
      a Go map does in some unspecified order. */
  predicate IsEnumeration(order: seq<string>, links: set<string>) {
    && (forall i, j :: 0 <= i < j < |order| ==> order[i] != order[j])
    && (forall h :: h in order ==> h in links)
    && (forall h :: h in links ==> h in order)
  }

  /** The hrefs counted as external: those naming a scheme. */
  ghost function ExternalLinks(links: set<string>): set<string> {
    set h | h in links && IsAbsoluteUrl(h)
  }

  /** The hrefs counted as internal: all others, anchors included. */
  ghost function InternalLinks(links: set<string>): set<string> {
    set h | h in links && !IsAbsoluteUrl(h)
  }

  /** The hrefs that are probed: all but anchors. */
  ghost function NonAnchors(links: set<string>): set<string> {
    set h | h in links && !IsAnchorLink(h)
  }

  /** The elements of a duplicate-free sequence number as many as it is
      long. */
  lemma {:induction false} DistinctCard(order: seq<string>)
    requires forall i, j :: 0 <= i < j < |order| ==> order[i] != order[j]
    ensures |set h | h in order| == |order|
    decreases |order|
  {
    if |order| > 0 {
      var rest := order[1..];
      assert forall i, j :: 0 <= i < j < |rest| ==> rest[i] != rest[j] by {
        assert forall i :: 0 <= i < |rest| ==> rest[i] == order[i + 1];
      }
      DistinctCard(rest);
      assert (set h | h in order) == (set h | h in rest) + {order[0]};
      assert order[0] !in rest;
    }
  }

  /* ---------------------------------------------------------------- */
  /* Counting                                                          */
  /* ---------------------------------------------------------------- */

  /** The counting loop over the link set: a fresh `LinkStats` with one
      count per href, external when it names a scheme. */
  function CountLinks(order: seq<string>): (r: LinkStats)
    ensures r.internalLinkCount + r.externalLinkCount == |order|
    ensures r.invalidLinkCount == 0 && r.invalidLinks == []
    ensures r.externalLinkCount == |Filter(order, true)|
    ensures r.internalLinkCount == |Filter(order, false)|
    decreases |order|
  {
    if |order| == 0 then ZeroStats
    else
      var r := CountLinks(order[1..]);
      if IsAbsoluteUrl(order[0]) then r.(externalLinkCount := r.externalLinkCount + 1)
      else r.(internalLinkCount := r.internalLinkCount + 1)
  }

  /** The hrefs of `order` that name a scheme (`absolute`) or do not. */
  function Filter(order: seq<string>, absolute: bool): seq<string>
    decreases |order|
  {
    if |order| == 0 then []
    else (if IsAbsoluteUrl(order[0]) == absolute then [order[0]] else []) + Filter(order[1..], absolute)
  }

  /** A filter keeps exactly the matching elements and repeats none. */
  lemma {:induction false} FilterContents(order: seq<string>, absolute: bool)
    requires forall i, j :: 0 <= i < j < |order| ==> order[i] != order[j]
    ensures forall h :: h in Filter(order, absolute) <==> h in order && IsAbsoluteUrl(h) == absolute
    ensures forall i, j :: 0 <= i < j < |Filter(order, absolute)| ==>
              Filter(order, absolute)[i] != Filter(order, absolute)[j]
    decreases |order|
  {
    if |order| > 0 {
      var rest := order[1..];
      assert forall i :: 0 <= i < |rest| ==> rest[i] == order[i + 1];
      FilterContents(rest, absolute);
      assert order[0] !in rest;
    }
  }

  /** Whatever order the link set is ranged over in, the external count is
      the number of distinct hrefs that name a scheme and the internal
      count the number of the others; together they count every href. */
  lemma LinkCounts(order: seq<string>, links: set<string>)
    requires IsEnumeration(order, links)
    ensures CountLinks(order).externalLinkCount == |ExternalLinks(links)|
    ensures CountLinks(order).internalLinkCount == |InternalLinks(links)|
    ensures |ExternalLinks(links)| + |InternalLinks(links)| == |links|
  {
    FilterContents(order, true);
    FilterContents(order, false);
    DistinctCard(Filter(order, true));
    DistinctCard(Filter(order, false));
    DistinctCard(order);
    assert (set h | h in Filter(order, true)) == ExternalLinks(links);
    assert (set h | h in Filter(order, false)) == InternalLinks(links);
    assert (set h | h in order) == links;
  }

  /** Three distinct hrefs without a scheme and one with a scheme count as
      three internal links and one external link. */
  lemma ThreeInternalOneExternal(order: seq<string>, links: set<string>, a: string, b: string, c: string, d: string)
    requires links == {a, b, c, d} && |{a, b, c}| == 3
    requires !IsAbsoluteUrl(a) && !IsAbsoluteUrl(b) && !IsAbsoluteUrl(c) && IsAbsoluteUrl(d)
    requires IsEnumeration(order, links)
    ensures CountLinks(order).internalLinkCount == 3
    ensures CountLinks(order).externalLinkCount == 1
  {
    forall h | h in links
      ensures h in ExternalLinks(links) <==> h == d
    {
    }
    assert ExternalLinks(links) == {d};
    assert InternalLinks(links) == {a, b, c};
    LinkCounts(order, links);
  }

  /** The link-type test page: a site-relative, a path-relative, an
      anchor and an absolute href count as three internal links and one
      external link, in whatever order the set is ranged over. */
  lemma LinkTypesExample(order: seq<string>, links: set<string>, site: string, path: string, anchor: string, other: string)
    requires site == "/siterelative" && path == "pathrelative/page1" && anchor == "#anchor"
    requires other == "https://www.othersite.com/test/x"
    requires links == {site, path, anchor, other}
    requires IsEnumeration(order, links)
    ensures CountLinks(order).internalLinkCount == 3
    ensures CountLinks(order).externalLinkCount == 1
  {
    SeparatorAt(other, 5);
    NoColonNotAbsolute(anchor);
    NoColonNotAbsolute(path);
    NoColonNotAbsolute(site);
    ThreeInternalOneExternal(order, links, site, path, anchor, other);
  }

  /* ---------------------------------------------------------------- */
  /* Probing                                                           */
  /* ---------------------------------------------------------------- */

  /** What a probe reports: the URL it checked and the outcome. */
  datatype LinkStatus = LinkStatus(url: string, isValid: bool, statusCode: int)

  /** One probe: resolve the href against the page URL and request it.
      When resolution fails the URL checked is the empty string, the zero
      value of the result that the source binds; a request for it fails
      before reaching the network, so the probe reports the failed-request
      outcome. */
  function ProbeLink(href: string, sourceUrl: string, fetch: string -> Option<int>): (r: LinkStatus)
    ensures GetFinalUrl(href, sourceUrl).Success? ==>
              && r.url == GetFinalUrl(href, sourceUrl).value
              && (r.isValid <==> fetch(r.url).Some? && fetch(r.url).value < 300)
              && r.statusCode == fetch(r.url).GetOr(FailedProbeStatus)
    ensures GetFinalUrl(href, sourceUrl).Failure? ==> r.url == "" && !r.isValid && r.statusCode == FailedProbeStatus
  {
    match GetFinalUrl(href, sourceUrl)
    case Success(url) =>
      var v := FindUrlValidity(fetch(url));
      LinkStatus(url, v.isValid, v.statusCode)
    case Failure(_) =>
      var v := FindUrlValidity(None);
      LinkStatus("", v.isValid, v.statusCode)
  }

  /** An href that cannot be resolved is reported invalid with the failed
      probe status, whatever the oracle says about the empty URL. */
  lemma UnresolvableIsInvalid(href: string, sourceUrl: string, fetch: string -> Option<int>)
    requires GetFinalUrl(href, sourceUrl).Failure?
    ensures ProbeLink(href, sourceUrl, fetch) == LinkStatus("", false, FailedProbeStatus)
  {
  }

  /** The hrefs a probe is spawned for, in ranging order: all but anchors. */
  function Probed(order: seq<string>): (r: seq<string>)
    ensures forall h :: h in r <==> h in order && !IsAnchorLink(h)
    ensures |r| <= |order|
    decreases |order|
  {
    if |order| == 0 then []
    else (if IsAnchorLink(order[0]) then [] else [order[0]]) + Probed(order[1..])
  }

  /** Exactly one probe is spawned per distinct non-anchor href. */
  lemma OneProbePerHref(order: seq<string>, links: set<string>)
    requires IsEnumeration(order, links)
    ensures forall i, j :: 0 <= i < j < |Probed(order)| ==> Probed(order)[i] != Probed(order)[j]
    ensures (set h | h in Probed(order)) == NonAnchors(links)
    ensures |Probed(order)| == |NonAnchors(links)|
  {
    ProbedDistinct(order);
    DistinctCard(Probed(order));
  }

  /** Filtering out anchors repeats no href. */
  lemma {:induction false} ProbedDistinct(order: seq<string>)
    requires forall i, j :: 0 <= i < j < |order| ==> order[i] != order[j]
    ensures forall i, j :: 0 <= i < j < |Probed(order)| ==> Probed(order)[i] != Probed(order)[j]
    decreases |order|
  {
    if |order| > 0 {
      var rest := order[1..];
      assert forall i :: 0 <= i < |rest| ==> rest[i] == order[i + 1];
      ProbedDistinct(rest);
      assert order[0] !in rest;
    }
  }

  /** The outcomes of the probes, in spawning order. */
  function Probes(order: seq<string>, sourceUrl: string, fetch: string -> Option<int>): seq<LinkStatus> {
    ProbeAll(Probed(order), sourceUrl, fetch)
  }

  /** One probe per href, in the order given. */
  function ProbeAll(hrefs: seq<string>, sourceUrl: string, fetch: string -> Option<int>): (r: seq<LinkStatus>)
    ensures |r| == |hrefs|
    ensures forall i :: 0 <= i < |r| ==> r[i] == ProbeLink(hrefs[i], sourceUrl, fetch)
  {
    seq(|hrefs|, i requires 0 <= i < |hrefs| => ProbeLink(hrefs[i], sourceUrl, fetch))
  }

  /** Probing a concatenation is probing each part. */
  lemma ProbeAllAppend(a: seq<string>, b: seq<string>, sourceUrl: string, fetch: string -> Option<int>)
    ensures ProbeAll(a + b, sourceUrl, fetch) == ProbeAll(a, sourceUrl, fetch) + ProbeAll(b, sourceUrl, fetch)
  {
  }

  /** Taking one href out of a sequence takes its outcome out of the
      outcomes. */
  lemma ProbeAllRemove(before: seq<string>, x: string, after: seq<string>, sourceUrl: string, fetch: string -> Option<int>)
    ensures multiset(ProbeAll(before + [x] + after, sourceUrl, fetch)) ==
              multiset{ProbeLink(x, sourceUrl, fetch)} + multiset(ProbeAll(before + after, sourceUrl, fetch))
  {
    ProbeAllAppend(before + [x], after, sourceUrl, fetch);
    ProbeAllAppend(before, [x], sourceUrl, fetch);
    ProbeAllAppend(before, after, sourceUrl, fetch);
    var pb, ph, pa := ProbeAll(before, sourceUrl, fetch), ProbeAll([x], sourceUrl, fetch), ProbeAll(after, sourceUrl, fetch);
    assert ph == [ProbeLink(x, sourceUrl, fetch)];
    assert multiset(pb + ph + pa) == multiset(pb) + multiset(ph) + multiset(pa);
    assert multiset(pb + pa) == multiset(pb) + multiset(pa);
  }

  /** An element of `b`'s multiset sits at some index `k`; taking it out
      leaves the rest of the multiset. */
  lemma PickOut<T>(a: seq<T>, b: seq<T>) returns (k: nat)
    requires |a| > 0 && multiset(a) == multiset(b)
    ensures k < |b| && b[k] == a[0]
    ensures b == b[..k] + [a[0]] + b[k + 1..]
    ensures a == [a[0]] + a[1..]
    ensures multiset(a[1..]) == multiset(b[..k] + b[k + 1..])
  {
    assert a[0] in multiset(b);
    k :| 0 <= k < |b| && b[k] == a[0];
    RemoveAt(b, k);
    DropFirst(a);
  }

  /** Taking the element at `k` out of `b`. */
  lemma RemoveAt<T>(b: seq<T>, k: nat)
    requires k < |b|
    ensures b == b[..k] + [b[k]] + b[k + 1..]
    ensures multiset(b[..k] + b[k + 1..]) == multiset(b) - multiset{b[k]}
  {
    assert b == b[..k] + [b[k]] + b[k + 1..];
  }

  /** Probing the same hrefs in another order gives the same outcomes in
      another order. */
  lemma {:induction false} ProbeAllPermutation(a: seq<string>, b: seq<string>, sourceUrl: string, fetch: string -> Option<int>)
    requires multiset(a) == multiset(b)
    ensures multiset(ProbeAll(a, sourceUrl, fetch)) == multiset(ProbeAll(b, sourceUrl, fetch))
    decreases |a|
  {
    if |a| > 0 {
      var x := a[0];
      var k := PickOut(a, b);
      ProbeAllPermutation(a[1..], b[..k] + b[k + 1..], sourceUrl, fetch);
      ProbeAllAppend([x], a[1..], sourceUrl, fetch);
      assert ProbeAll([x], sourceUrl, fetch) == [ProbeLink(x, sourceUrl, fetch)];
      var tail := ProbeAll(a[1..], sourceUrl, fetch);
      assert multiset(ProbeAll(a, sourceUrl, fetch)) == multiset{ProbeLink(x, sourceUrl, fetch)} + multiset(tail);
      ProbeAllRemove(b[..k], x, b[k + 1..], sourceUrl, fetch);
    }
  }

  /** Two duplicate-free sequences with the same elements are
      rearrangements of each other. */
  lemma SameElementsPermutation(a: seq<string>, b: seq<string>)
    requires forall i, j :: 0 <= i < j < |a| ==> a[i] != a[j]
    requires forall i, j :: 0 <= i < j < |b| ==> b[i] != b[j]
    requires forall h :: h in a <==> h in b
    ensures multiset(a) == multiset(b)
  {
    forall h ensures multiset(a)[h] == multiset(b)[h] {
      DistinctMultiplicity(a, h);
      DistinctMultiplicity(b, h);
    }
  }

  /** In a duplicate-free sequence every element occurs once. */
  lemma {:induction false} DistinctMultiplicity(a: seq<string>, h: string)
    requires forall i, j :: 0 <= i < j < |a| ==> a[i] != a[j]
    ensures multiset(a)[h] == if h in a then 1 else 0
    decreases |a|
  {
    if |a| > 0 {
      var rest := a[1..];
      assert forall i :: 0 <= i < |rest| ==> rest[i] == a[i + 1];
      DistinctMultiplicity(rest, h);
      assert a == [a[0]] + rest;
      assert a[0] !in rest;
    }
  }

  /* ---------------------------------------------------------------- */
  /* Collecting                                                        */
  /* ---------------------------------------------------------------- */

  /** The URLs of the invalid outcomes, in arrival order. */
  function InvalidUrls(events: seq<LinkStatus>): (r: seq<string>)
    ensures |r| <= |events|
    decreases |events|
  {
    if |events| == 0 then []
    else (if events[0].isValid then [] else [events[0].url]) + InvalidUrls(events[1..])
  }

  /** A URL is among the invalid URLs exactly when some outcome reporting
      invalid carries it. */
  lemma {:induction false} InvalidUrlsMembers(events: seq<LinkStatus>, u: string)
    ensures u in InvalidUrls(events) <==> exists i :: 0 <= i < |events| && !events[i].isValid && events[i].url == u
    decreases |events|
  {
    if |events| > 0 {
      var rest := events[1..];
      InvalidUrlsMembers(rest, u);
      assert forall i :: 1 <= i < |events| ==> events[i] == rest[i - 1];
      if exists i :: 0 <= i < |events| && !events[i].isValid && events[i].url == u {
        var i :| 0 <= i < |events| && !events[i].isValid && events[i].url == u;
        if i > 0 {
          assert !rest[i - 1].isValid && rest[i - 1].url == u;
        }
      }
    }
  }

  /** Invalid URLs of a concatenation are those of each part. */
  lemma {:induction false} InvalidUrlsAppend(a: seq<LinkStatus>, b: seq<LinkStatus>)
    ensures InvalidUrls(a + b) == InvalidUrls(a) + InvalidUrls(b)
    decreases |a|
  {
    if |a| > 0 {
      var h := if a[0].isValid then [] else [a[0].url];
      assert (a + b)[0] == a[0];
      assert (a + b)[1..] == a[1..] + b;
      assert InvalidUrls(a + b) == h + InvalidUrls(a[1..] + b);
      InvalidUrlsAppend(a[1..], b);
      assert h + (InvalidUrls(a[1..]) + InvalidUrls(b)) == (h + InvalidUrls(a[1..])) + InvalidUrls(b);
    } else {
      assert a + b == b;
    }
  }

  /** The invalid URLs of a sequence split around one outcome. */
  lemma InvalidUrlsAround(before: seq<LinkStatus>, x: LinkStatus, after: seq<LinkStatus>)
    ensures InvalidUrls(before + [x] + after) == InvalidUrls(before) + InvalidUrls([x]) + InvalidUrls(after)
  {
    InvalidUrlsAppend(before + [x], after);
    InvalidUrlsAppend(before, [x]);
  }

  /** Taking one outcome out of a sequence takes its URL, if invalid, out
      of the invalid URLs. */
  lemma InvalidUrlsRemove(before: seq<LinkStatus>, x: LinkStatus, after: seq<LinkStatus>)
    ensures multiset(InvalidUrls(before + [x] + after)) ==
              multiset(InvalidUrls([x])) + multiset(InvalidUrls(before + after))
  {
    InvalidUrlsAround(before, x, after);
    InvalidUrlsAppend(before, after);
    var ib, ih, ia := InvalidUrls(before), InvalidUrls([x]), InvalidUrls(after);
    assert multiset(ib + ih + ia) == multiset(ib) + multiset(ih) + multiset(ia);
    assert multiset(ib + ia) == multiset(ib) + multiset(ia);
  }

  /** The invalid URLs, as a multiset, do not depend on the arrival
      order. */
  lemma {:induction false} InvalidUrlsPermutation(a: seq<LinkStatus>, b: seq<LinkStatus>)
    requires multiset(a) == multiset(b)
    ensures multiset(InvalidUrls(a)) == multiset(InvalidUrls(b))
    decreases |a|
  {
    if |a| > 0 {
      var x := a[0];
      var k := PickOut(a, b);
      InvalidUrlsPermutation(a[1..], b[..k] + b[k + 1..]);
      InvalidUrlsAppend([x], a[1..]);
      InvalidUrlsRemove(b[..k], x, b[k + 1..]);
    }
  }

  /** The end of the receive loop: the channel was closed after `received`
      outcomes, or the loop waits for an outcome that never comes. */
  datatype Collected = Closed(stats: LinkStats, received: nat) | Blocked

  /** One received outcome: an invalid one is counted and its URL appended. */
  function Record(stats: LinkStats, event: LinkStatus): LinkStats {
    if event.isValid then stats
    else stats.(invalidLinkCount := stats.invalidLinkCount + 1, invalidLinks := stats.invalidLinks + [event.url])
  }

  /** The number of outcomes after which the loop closes the channel: the
      check follows the decrement, so at least one. */
  function Needed(count: int): nat {
    if count < 1 then 1 else count
  }

  /** The receive loop: each outcome decrements `count`, and the channel is
      closed once `count` drops to zero or below; until then the loop waits
      for the next outcome. It ends after `max(count, 1)` outcomes when that
      many arrive, having counted and appended the invalid ones among them,
      and blocks otherwise. */
  function Receive(events: seq<LinkStatus>, count: int, stats: LinkStats): (r: Collected)
    ensures r.Closed? <==> |events| >= Needed(count)
    ensures r.Closed? ==> r.received == Needed(count)
    ensures r.Closed? ==>
              && r.stats.invalidLinkCount == stats.invalidLinkCount + |InvalidUrls(events[..Needed(count)])|
              && r.stats.invalidLinks == stats.invalidLinks + InvalidUrls(events[..Needed(count)])
    ensures r.Closed? ==>
              r.stats.internalLinkCount == stats.internalLinkCount && r.stats.externalLinkCount == stats.externalLinkCount
    decreases |events|
  {
    if |events| == 0 then Blocked
    else
      var left := count - 1;
      var stats' := Record(stats, events[0]);
      assert InvalidUrls(events[..1]) == if events[0].isValid then [] else [events[0].url];
      if left <= 0 then Closed(stats', 1)
      else
        match Receive(events[1..], left, stats')
        case Blocked => Blocked
        case Closed(s, n) =>
          assert events[..count] == [events[0]] + events[1..][..left];
          Closed(s, n + 1)
  }

  /* ---------------------------------------------------------------- */
  /* The validity pass and the crawl, as written                       */
  /* ---------------------------------------------------------------- */

  /** How the crawl as written ends: with a result, or never. */
  datatype Outcome = Finished(info: AnalysisData) | Hangs

  /** `completion` is a possible arrival order of the probe outcomes. */
  predicate Arrives(completion: seq<LinkStatus>, order: seq<string>, sourceUrl: string, fetch: string -> Option<int>) {
    multiset(completion) == multiset(Probes(order, sourceUrl, fetch))
  }

  /** The validity pass as the source writes it: one probe per non-anchor
      href, then the receive loop, then a sort of the invalid URLs. With no
      probe spawned the loop waits forever. */
  function CrawlForValidityAsWritten(info: AnalysisData, order: seq<string>, fetch: string -> Option<int>,
                                     completion: seq<LinkStatus>): (r: Outcome)
    requires Arrives(completion, order, info.sourceUrl, fetch)
    ensures r.Hangs? <==> |Probed(order)| == 0
  {
    var count := |Probed(order)|;
    assert |completion| == count by {
      assert |multiset(completion)| == |multiset(Probes(order, info.sourceUrl, fetch))|;
    }
    match Receive(completion, count, info.linkStats)
    case Blocked => Hangs
    case Closed(stats, _) =>
      Finished(info.(linkStats := stats.(invalidLinks := SortStrings(stats.invalidLinks))))
  }

  /** `crawl` as written: nothing happens for an empty link set; otherwise
      the counts are replaced by fresh ones and the validity pass runs. */
  function CrawlAsWritten(info: AnalysisData, links: set<string>, order: seq<string>,
                          fetch: string -> Option<int>, completion: seq<LinkStatus>): (r: Outcome)
    requires IsEnumeration(order, links)
    requires Arrives(completion, order, info.sourceUrl, fetch)
    ensures links == {} ==> r == Finished(info)
    ensures r.Hangs? <==> links != {} && NonAnchors(links) == {}
  {
    OneProbePerHref(order, links);
    if |order| == 0 then
      assert links == {};
      Finished(info)
    else
      assert order[0] in links;
      CrawlForValidityAsWritten(info.(linkStats := CountLinks(order)), order, fetch, completion)
  }

  /* ---------------------------------------------------------------- */
  /* The validity pass and the crawl, corrected                        */
  /* ---------------------------------------------------------------- */

  /** The validity pass without the hang: when no probe was spawned the
      receive loop is skipped. Every outcome arrives and the invalid URLs
      are appended, counted and sorted. */
  function CrawlForValidity(info: AnalysisData, order: seq<string>, fetch: string -> Option<int>,
                            completion: seq<LinkStatus>): (r: AnalysisData)
    requires Arrives(completion, order, info.sourceUrl, fetch)
    ensures r.(linkStats := info.linkStats) == info
    ensures r.linkStats.internalLinkCount == info.linkStats.internalLinkCount
    ensures r.linkStats.externalLinkCount == info.linkStats.externalLinkCount
    ensures r.linkStats.invalidLinkCount ==
              info.linkStats.invalidLinkCount + |InvalidUrls(Probes(order, info.sourceUrl, fetch))|
    ensures multiset(r.linkStats.invalidLinks) ==
              multiset(info.linkStats.invalidLinks) + multiset(InvalidUrls(Probes(order, info.sourceUrl, fetch)))
    ensures Sorted(r.linkStats.invalidLinks)
  {
    var count := |Probed(order)|;
    assert |completion| == count by {
      assert |multiset(completion)| == |multiset(Probes(order, info.sourceUrl, fetch))|;
    }
    InvalidUrlsPermutation(completion, Probes(order, info.sourceUrl, fetch));
    assert |InvalidUrls(completion)| == |InvalidUrls(Probes(order, info.sourceUrl, fetch))| by {
      assert |multiset(InvalidUrls(completion))| == |multiset(InvalidUrls(Probes(order, info.sourceUrl, fetch)))|;
    }
    if count == 0 then
      assert completion == [];
      info.(linkStats := info.linkStats.(invalidLinks := SortStrings(info.linkStats.invalidLinks)))
    else
      match Receive(completion, count, info.linkStats)
      case Closed(stats, _) =>
        assert completion[..count] == completion;
        info.(linkStats := stats.(invalidLinks := SortStrings(stats.invalidLinks)))
  }

  /** The crawl without the hang. */
  function Crawl(info: AnalysisData, links: set<string>, order: seq<string>,
                 fetch: string -> Option<int>, completion: seq<LinkStatus>): (r: AnalysisData)
    requires IsEnumeration(order, links)
    requires Arrives(completion, order, info.sourceUrl, fetch)
    ensures links == {} ==> r == info
    ensures r.(linkStats := info.linkStats) == info
  {
    if |order| == 0 then
      assert links == {};
      info
    else
      assert order[0] in links;
      CrawlForValidity(info.(linkStats := CountLinks(order)), order, fetch, completion)
  }

  /* ---------------------------------------------------------------- */
  /* Properties of the crawl                                           */
  /* ---------------------------------------------------------------- */

  /** After crawling a non-empty link set from zero statistics: the
      external and internal counts are those of the set, the invalid count
      is the length of the invalid list, which holds exactly the URLs of the
      invalid probe outcomes and is sorted. */
  lemma CrawlStats(info: AnalysisData, links: set<string>, order: seq<string>,
                   fetch: string -> Option<int>, completion: seq<LinkStatus>)
    requires IsEnumeration(order, links)
    requires Arrives(completion, order, info.sourceUrl, fetch)
    requires links != {}
    ensures var s := Crawl(info, links, order, fetch, completion).linkStats;
      && s.externalLinkCount == |ExternalLinks(links)|
      && s.internalLinkCount == |InternalLinks(links)|
      && s.externalLinkCount + s.internalLinkCount == |links|
      && s.invalidLinkCount == |s.invalidLinks|
      && multiset(s.invalidLinks) == multiset(InvalidUrls(Probes(order, info.sourceUrl, fetch)))
      && Sorted(s.invalidLinks)
  {
    LinkCounts(order, links);
    var h :| h in links;
    assert h in order;
    var s := Crawl(info, links, order, fetch, completion).linkStats;
    assert |s.invalidLinks| == |multiset(s.invalidLinks)|;
  }

  /** The crawl gives the same result whatever order the link set is
      ranged over in and whatever order the probe outcomes arrive in. */
  lemma CrawlIgnoresOrder(info: AnalysisData, links: set<string>, fetch: string -> Option<int>,
                          order1: seq<string>, completion1: seq<LinkStatus>,
                          order2: seq<string>, completion2: seq<LinkStatus>)
    requires IsEnumeration(order1, links) && Arrives(completion1, order1, info.sourceUrl, fetch)
    requires IsEnumeration(order2, links) && Arrives(completion2, order2, info.sourceUrl, fetch)
    ensures Crawl(info, links, order1, fetch, completion1) == Crawl(info, links, order2, fetch, completion2)
  {
    if links != {} {
      var r1 := Crawl(info, links, order1, fetch, completion1);
      var r2 := Crawl(info, links, order2, fetch, completion2);
      CrawlStats(info, links, order1, fetch, completion1);
      CrawlStats(info, links, order2, fetch, completion2);
      OneProbePerHref(order1, links);
      OneProbePerHref(order2, links);
      SameElementsPermutation(Probed(order1), Probed(order2));
      ProbeAllPermutation(Probed(order1), Probed(order2), info.sourceUrl, fetch);
      InvalidUrlsPermutation(Probes(order1, info.sourceUrl, fetch), Probes(order2, info.sourceUrl, fetch));
      SortedUnique(r1.linkStats.invalidLinks, r2.linkStats.invalidLinks);
    }
  }

  /** When some href is not an anchor, the crawl as written finishes with
      the corrected result. */
  lemma AsWrittenAgrees(info: AnalysisData, links: set<string>, order: seq<string>,
                        fetch: string -> Option<int>, completion: seq<LinkStatus>)
    requires IsEnumeration(order, links)
    requires Arrives(completion, order, info.sourceUrl, fetch)
    requires NonAnchors(links) != {}
    ensures CrawlAsWritten(info, links, order, fetch, completion) == Finished(Crawl(info, links, order, fetch, completion))
  {
    OneProbePerHref(order, links);
    var h :| h in NonAnchors(links);
    assert h in order;
  }

  /** A page whose only link is an anchor never finishes its crawl as
      written, while the corrected crawl counts the anchor as internal and
      reports no invalid links. */
  lemma AnchorOnlyPageHangs(info: AnalysisData, fetch: string -> Option<int>)
    requires info.linkStats == ZeroStats
    ensures CrawlAsWritten(info, {"#top"}, ["#top"], fetch, []) == Hangs
    ensures Crawl(info, {"#top"}, ["#top"], fetch, []).linkStats == LinkStats(1, 0, 0, [])
  {
    assert IsAnchorLink("#top");
    assert Probed(["#top"]) == [];
    assert NonAnchors({"#top"}) == {};
    NoColonNotAbsolute("#top");
  }

  /** A URL is listed as invalid exactly when some distinct non-anchor href
      of the page resolves to it and its probe reports invalid. */
  lemma InvalidLinksMembers(info: AnalysisData, links: set<string>, order: seq<string>,
                            fetch: string -> Option<int>, completion: seq<LinkStatus>, u: string)
    requires IsEnumeration(order, links)
    requires Arrives(completion, order, info.sourceUrl, fetch)
    requires links != {}
    ensures u in Crawl(info, links, order, fetch, completion).linkStats.invalidLinks <==>
              exists h :: h in NonAnchors(links) && !ProbeLink(h, info.sourceUrl, fetch).isValid
                          && ProbeLink(h, info.sourceUrl, fetch).url == u
  {
    CrawlStats(info, links, order, fetch, completion);
    var probes := Probes(order, info.sourceUrl, fetch);
    var listed := Crawl(info, links, order, fetch, completion).linkStats.invalidLinks;
    assert u in listed <==> u in multiset(listed);
    InvalidUrlsMembers(probes, u);
    InvalidProbesMembers(order, links, info.sourceUrl, fetch, u);
  }

  /** Some probe outcome reports `u` as invalid exactly when some
      non-anchor href of the page resolves to `u` and is invalid. */
  lemma InvalidProbesMembers(order: seq<string>, links: set<string>, sourceUrl: string,
                             fetch: string -> Option<int>, u: string)
    requires IsEnumeration(order, links)
    ensures var probes := Probes(order, sourceUrl, fetch);
      (exists i :: 0 <= i < |probes| && !probes[i].isValid && probes[i].url == u) <==>
      exists h :: h in NonAnchors(links) && !ProbeLink(h, sourceUrl, fetch).isValid
                  && ProbeLink(h, sourceUrl, fetch).url == u
  {
    var probes := Probes(order, sourceUrl, fetch);
    OneProbePerHref(order, links);
    var hrefs := Probed(order);
    if exists h :: h in NonAnchors(links) && !ProbeLink(h, sourceUrl, fetch).isValid
                   && ProbeLink(h, sourceUrl, fetch).url == u {
      var h :| h in NonAnchors(links) && !ProbeLink(h, sourceUrl, fetch).isValid
               && ProbeLink(h, sourceUrl, fetch).url == u;
      assert h in hrefs;
      var i :| 0 <= i < |hrefs| && hrefs[i] == h;
      assert probes[i] == ProbeLink(h, sourceUrl, fetch);
    }
    if exists i :: 0 <= i < |probes| && !probes[i].isValid && probes[i].url == u {
      var i :| 0 <= i < |probes| && !probes[i].isValid && probes[i].url == u;
      assert hrefs[i] in NonAnchors(links);
    }
  }
}

=== FILE: extract.dfy ===
/** The HTML extraction pass: the pre-parse gate over the HTTP status and
    content type, and the token loop that turns the tokenizer's output into
    the html version, title, heading counts and link set of a page. The
    tokenizer itself is not modelled: its output is an input sequence of
    tokens, with tag names as it delivers them (lower-cased). */
module Extract {
  import opened Results
  import opened Strings
  import opened Types

  /** One attribute of a tag, as the tokenizer reports it. */
  datatype Attribute = Attribute(key: string, val: string)

  /** The tokens the loop distinguishes. `Eof` is the tokenizer's error
      token carrying end of input; `Err` carries any other error. */
  datatype Token =
    | Doctype(text: string)
    | StartTag(name: string, attrs: seq<Attribute>)
    | SelfClosingTag(name: string, attrs: seq<Attribute>)
    | EndTag(name: string)
    | Text(content: string)
    | Comment(content: string)
    | Eof
    | Err(reason: string)

  /** A start or self-closing tag: the tokens the tag dispatch inspects. */
  predicate IsOpen(t: Token) {
    t.StartTag? || t.SelfClosingTag?
  }

  /** A token that ends the loop. */
  predicate IsStop(t: Token) {
    t.Eof? || t.Err?
  }

  /** The result under construction together with the transient parsing
      state of one extraction run. */
  datatype State = State(info: AnalysisData, parsing: ParsingState)

  /* ---------------------------------------------------------------- */
  /* The doctype pattern `(?i)HTML\s+[4]`                              */
  /* ---------------------------------------------------------------- */

  /** `html` in any case starts at `i`. */
  predicate HtmlAt(s: string, i: int) {
    0 <= i && i + 4 <= |s|
    && FoldsTo(s[i], 'h') && FoldsTo(s[i + 1], 't') && FoldsTo(s[i + 2], 'm') && FoldsTo(s[i + 3], 'l')
  }

  /** A match of the doctype pattern whose `html` starts at `i` and whose
      `4` sits at `k`: everything strictly between is white space, and there
      is at least one such character. */
  predicate Html4At(s: string, i: int, k: int) {
    HtmlAt(s, i) && i + 4 < k < |s| && s[k] == '4'
    && forall m :: i + 4 <= m < k ==> IsSpace(s[m])
  }

  /** The doctype pattern matches somewhere in `s`. */
  ghost predicate Html4Doctype(s: string) {
    exists i, k :: Html4At(s, i, k)
  }

  /** The end of the run of white space starting at `j`. */
  function SkipSpaces(s: string, j: int): (k: int)
    requires 0 <= j <= |s|
    ensures j <= k <= |s|
    ensures forall m :: j <= m < k ==> IsSpace(s[m])
    ensures k < |s| ==> !IsSpace(s[k])
    decreases |s| - j
  {
    if j < |s| && IsSpace(s[j]) then SkipSpaces(s, j + 1) else j
  }

  /** A left-to-right search for the doctype pattern from index `i` on: at
      each candidate `html` the greedy `\s+` runs to the end of the white
      space, and the pattern matches when a `4` follows. */
  function FindHtml4(s: string, i: nat): (r: bool)
    requires i <= |s|
    ensures r <==> exists i', k :: i <= i' && Html4At(s, i', k)
    decreases |s| - i
  {
    if i + 4 > |s| then
      assert forall i', k :: i <= i' && Html4At(s, i', k) ==> false;
      false
    else
      var k := SkipSpaces(s, i + 4);
      var here := HtmlAt(s, i) && i + 4 < k < |s| && s[k] == '4';
      assert here ==> Html4At(s, i, k);
      assert (exists k' :: Html4At(s, i, k')) ==> here by {
        if k' :| Html4At(s, i, k') {
          assert k' == k;
        }
      }
      here || FindHtml4(s, i + 1)
  }

  /** Whether a doctype's text makes the page HTML 4. */
  function MatchesHtml4(text: string): (r: bool)
    ensures r <==> Html4Doctype(text)
  {
    FindHtml4(text, 0)
  }

  /* ---------------------------------------------------------------- */
  /* The heading pattern `(?i)h\d`                                     */
  /* ---------------------------------------------------------------- */

  /** An `h` in either case immediately followed by an ASCII digit at `i`. */
  predicate HeadingAt(name: string, i: int) {
    0 <= i && i + 1 < |name| && FoldsTo(name[i], 'h') && IsDigit(name[i + 1])
  }

  /** The heading pattern matches somewhere in the tag name. */
  predicate IsHeadingName(name: string) {
    exists i | 0 <= i < |name| :: HeadingAt(name, i)
  }

  /* ---------------------------------------------------------------- */
  /* Tag dispatch                                                      */
  /* ---------------------------------------------------------------- */

  /** The attribute key `href` in any ASCII case. */
  predicate IsHrefKey(key: string) {
    Lower(key) == "href"
  }

  /** The value of the first attribute whose key is `href` in any case. */
  function FirstHref(attrs: seq<Attribute>): (r: Option<string>)
    ensures r.None? <==> forall i :: 0 <= i < |attrs| ==> !IsHrefKey(attrs[i].key)
    ensures r.Some? ==> exists i :: 0 <= i < |attrs| && IsHrefKey(attrs[i].key) && r.value == attrs[i].val
                                    && forall j :: 0 <= j < i ==> !IsHrefKey(attrs[j].key)
  {
    if |attrs| == 0 then None
    else if IsHrefKey(attrs[0].key) then Some(attrs[0].val)
    else
      var r := FirstHref(attrs[1..]);
      assert forall i :: 1 <= i < |attrs| ==> attrs[i] == attrs[1..][i - 1];
      r
  }

  /** A start, self-closing or end tag. An open `title` tag opens the
      capture slot; otherwise a heading name counts one heading under the
      upper-cased name; otherwise an `a` tag adds its first href to the link
      set. Every end tag closes the capture slot. */
  function ProcessToken(t: Token, st: State): (r: State)
    requires IsOpen(t) || t.EndTag?
    ensures r.info.(headingsCount := st.info.headingsCount) == st.info
    ensures r.parsing.inputTypeCounts == st.parsing.inputTypeCounts
    ensures t.EndTag? ==> r.parsing.currTag == "" && r.info == st.info && r.parsing.allLinks == st.parsing.allLinks
    ensures IsOpen(t) && t.name == "title" ==>
              r.parsing.currTag == "title" && r.info == st.info && r.parsing.allLinks == st.parsing.allLinks
    ensures IsOpen(t) && t.name != "title" && IsHeadingName(t.name) ==>
              && Count(r.info.headingsCount, Upper(t.name)) == Count(st.info.headingsCount, Upper(t.name)) + 1
              && (forall k :: k != Upper(t.name) ==> Count(r.info.headingsCount, k) == Count(st.info.headingsCount, k))
              && r.parsing == st.parsing
    ensures IsOpen(t) && t.name == "a" ==>
              && r.info == st.info && r.parsing.currTag == st.parsing.currTag
              && r.parsing.allLinks == st.parsing.allLinks + (if FirstHref(t.attrs).Some? then {FirstHref(t.attrs).value} else {})
    ensures IsOpen(t) && t.name != "title" && t.name != "a" && !IsHeadingName(t.name) ==> r == st
  {
    if IsOpen(t) then
      if t.name == "title" then
        st.(parsing := st.parsing.(currTag := "title"))
      else if IsHeadingName(t.name) then
        var key := Upper(t.name);
        var counts := st.info.headingsCount;
        st.(info := st.info.(headingsCount := counts[key := Count(counts, key) + 1]))
      else if t.name == "a" then
        match FirstHref(t.attrs)
        case Some(href) => st.(parsing := st.parsing.(allLinks := st.parsing.allLinks + {href}))
        case None => st
      else st
    else
      st.(parsing := st.parsing.(currTag := ""))
  }

  /** A text token sets the title while the capture slot is open. */
  function ProcessText(content: string, st: State): (r: State)
    ensures r.parsing == st.parsing
    ensures r.info.(title := st.info.title) == st.info
    ensures r.info.title == if st.parsing.currTag == "title" then content else st.info.title
  {
    if st.parsing.currTag == "title" then st.(info := st.info.(title := content)) else st
  }

  /** The effect of one token that does not end the loop. A doctype whose
      text matches the HTML 4 pattern sets the version to "4"; comments and
      stop tokens change nothing. */
  function Step(st: State, t: Token): (r: State)
    ensures r.info.sourceUrl == st.info.sourceUrl && r.info.linkStats == st.info.linkStats
    ensures r.info.pageType == st.info.pageType
    ensures r.parsing.inputTypeCounts == st.parsing.inputTypeCounts
    ensures t.Doctype? ==> r.parsing == st.parsing && r.info.(htmlVersion := st.info.htmlVersion) == st.info
    ensures r.info.htmlVersion == if t.Doctype? && Html4Doctype(t.text) then "4" else st.info.htmlVersion
    ensures t.Comment? || IsStop(t) ==> r == st
  {
    match t
    case Doctype(text) => if MatchesHtml4(text) then st.(info := st.info.(htmlVersion := "4")) else st
    case Text(content) => ProcessText(content, st)
    case StartTag(_, _) => ProcessToken(t, st)
    case SelfClosingTag(_, _) => ProcessToken(t, st)
    case EndTag(_) => ProcessToken(t, st)
    case Comment(_) => st
    case Eof => st
    case Err(_) => st
  }

  /* ---------------------------------------------------------------- */
  /* The token loop                                                    */
  /* ---------------------------------------------------------------- */

  /** All steps of `ts` applied in order, last token last. */
  function Run(st: State, ts: seq<Token>): State
    decreases |ts|
  {
    if |ts| == 0 then st else Step(Run(st, ts[..|ts| - 1]), ts[|ts| - 1])
  }

  /** Running a sequence with a token in front is stepping that token
      first. */
  lemma {:induction false} RunCons(st: State, t: Token, ts: seq<Token>)
    ensures Run(st, [t] + ts) == Run(Step(st, t), ts)
    decreases |ts|
  {
    if |ts| == 0 {
      assert ([t] + ts)[..0] == [];
    } else {
      var n := |ts|;
      assert ([t] + ts)[..n] == [t] + ts[..n - 1];
      assert ([t] + ts)[n] == ts[n - 1];
      RunCons(st, t, ts[..n - 1]);
    }
  }

  /** The index of the first stop token, or the length when there is
      none. */
  function FirstStop(ts: seq<Token>): (k: nat)
    ensures k <= |ts|
    ensures forall i :: 0 <= i < k ==> !IsStop(ts[i])
    ensures k < |ts| ==> IsStop(ts[k])
  {
    if |ts| == 0 || IsStop(ts[0]) then 0
    else
      var k := FirstStop(ts[1..]);
      assert forall i :: 1 <= i <= k ==> ts[i] == ts[1..][i - 1];
      1 + k
  }

  /** The loop of the fetch: tokens are consumed until the end-of-input
      token, which succeeds, or an error token, which fails with its
      reason. The tokenizer always ends its stream with one of the two;
      a sequence that ends without either, which it never produces, is
      read as end of input.
      On success the state is every token before the stop applied in
      order. */
  function Scan(st: State, ts: seq<Token>): (r: Result<State, string>)
    ensures r.Failure? <==> FirstStop(ts) < |ts| && ts[FirstStop(ts)].Err?
    ensures r.Failure? ==> r.error == ts[FirstStop(ts)].reason
    ensures r.Success? ==> r.value == Run(st, ts[..FirstStop(ts)])
    decreases |ts|
  {
    if |ts| == 0 then Success(st)
    else match ts[0]
      case Eof => Success(st)
      case Err(reason) => Failure(reason)
      case _ =>
        var rest := Scan(Step(st, ts[0]), ts[1..]);
        assert FirstStop(ts) == 1 + FirstStop(ts[1..]);
        assert ts[..FirstStop(ts)] == [ts[0]] + ts[1..][..FirstStop(ts[1..])];
        RunCons(st, ts[0], ts[1..][..FirstStop(ts[1..])]);
        rest
  }

  /* ---------------------------------------------------------------- */
  /* The fetch                                                         */
  /* ---------------------------------------------------------------- */

  /** What the HTTP request returned: status, content-type header and the
      tokenizer's reading of the body. */
  datatype Response = Response(statusCode: int, contentType: string, body: seq<Token>)

  /** The ways a fetch fails. */
  datatype FetchError =
    | FetchFailed
    | UnsuccessfulStatus(statusCode: int)
    | NotHtml
    | TokenizerFailed(reason: string)

  /** The pre-parse gate: a status of 300 or more is refused first, then a
      content type that does not contain `text/html` in any case. Lower-
      casing ASCII letters is enough here, since no other character
      lower-cases to a letter of `text/html`. */
  function Gate(statusCode: int, contentType: string): (r: Option<FetchError>)
    ensures r.None? <==> statusCode < 300 && Contains(Lower(contentType), "text/html")
    ensures statusCode >= 300 ==> r == Some(UnsuccessfulStatus(statusCode))
    ensures statusCode < 300 && r.Some? ==> r == Some(NotHtml)
  {
    if statusCode >= 300 then Some(UnsuccessfulStatus(statusCode))
    else if !Contains(Lower(contentType), "text/html") then Some(NotHtml)
    else None
  }

  /** Fetching and extracting one page into `info`. `response` is `None`
      when the request itself failed. The parsing state starts empty. */
  function FetchUrlContent(info: AnalysisData, response: Option<Response>): (r: Result<State, FetchError>)
    ensures response.None? ==> r == Failure(FetchFailed)
    ensures response.Some? && Gate(response.value.statusCode, response.value.contentType).Some? ==>
              r == Failure(Gate(response.value.statusCode, response.value.contentType).value)
    ensures r.Success? <==>
              && response.Some? && Gate(response.value.statusCode, response.value.contentType).None?
              && var ts := response.value.body; !(FirstStop(ts) < |ts| && ts[FirstStop(ts)].Err?)
    ensures r.Success? ==> r.value == Run(State(info, EmptyParsing), response.value.body[..FirstStop(response.value.body)])
  {
    match response
    case None => Failure(FetchFailed)
    case Some(resp) =>
      match Gate(resp.statusCode, resp.contentType)
      case Some(e) => Failure(e)
      case None =>
        match Scan(State(info, EmptyParsing), resp.body)
        case Success(st) => Success(st)
        case Failure(reason) => Failure(TokenizerFailed(reason))
  }
}

=== FILE: extract_facts.dfy ===
/** What an extraction run computes, stated per field of the result over
    the whole token sequence rather than token by token: the html version,
    the link set, the heading counts, the capture slot and the title. */
module ExtractFacts {
  import opened Results
  import opened Strings
  import opened Types
  import opened Extract

  /* ---------------------------------------------------------------- */
  /* What a single token contributes                                   */
  /* ---------------------------------------------------------------- */

  /** An open `title` tag, which opens the capture slot. */
  predicate IsTitleOpen(t: Token) {
    IsOpen(t) && t.name == "title"
  }

  /** The heading a token counts, if any: an open tag other than `title`
      whose name matches the heading pattern, under its upper-cased name. */
  function HeadingKey(t: Token): Option<string> {
    if IsOpen(t) && t.name != "title" && IsHeadingName(t.name) then Some(Upper(t.name)) else None
  }

  /** The href a token contributes to the link set, if any: the first href
      of an open `a` tag. */
  function LinkOf(t: Token): Option<string> {
    if IsOpen(t) && t.name == "a" then FirstHref(t.attrs) else None
  }

  /** A doctype token whose text matches the HTML 4 pattern. */
  ghost predicate IsHtml4Token(t: Token) {
    t.Doctype? && Html4Doctype(t.text)
  }

  /** The effect of one step on each field the extraction fills in. */
  lemma StepEffect(st: State, t: Token)
    ensures Step(st, t).parsing.currTag ==
              if IsTitleOpen(t) then "title" else if t.EndTag? then "" else st.parsing.currTag
    ensures Step(st, t).info.title ==
              if t.Text? && st.parsing.currTag == "title" then t.content else st.info.title
    ensures Step(st, t).parsing.allLinks ==
              st.parsing.allLinks + (if LinkOf(t).Some? then {LinkOf(t).value} else {})
  {
  }

  /** The effect of one step on the heading count under `k`. */
  lemma StepHeading(st: State, t: Token, k: string)
    ensures Count(Step(st, t).info.headingsCount, k) ==
              Count(st.info.headingsCount, k) + (if HeadingKey(t) == Some(k) then 1 else 0)
    ensures k in Step(st, t).info.headingsCount <==> k in st.info.headingsCount || HeadingKey(t) == Some(k)
  {
  }

  /** The tag dispatch is an else-if chain, so an open tag changes at most
      one of the capture slot, the heading counts and the link set. */
  lemma DispatchExclusive(st: State, t: Token)
    requires IsOpen(t)
    ensures var r := Step(st, t);
      (if r.parsing.currTag != st.parsing.currTag then 1 else 0)
      + (if r.info.headingsCount != st.info.headingsCount then 1 else 0)
      + (if r.parsing.allLinks != st.parsing.allLinks then 1 else 0) <= 1
  {
    assert !IsHeadingName("a") by {
      assert forall i :: !HeadingAt("a", i);
    }
  }

  /* ---------------------------------------------------------------- */
  /* Whole runs                                                        */
  /* ---------------------------------------------------------------- */

  /** A run leaves the page URL, the link statistics, the page type and the
      input-type counts as they were. */
  lemma {:induction false} RunKeeps(st: State, ts: seq<Token>)
    ensures Run(st, ts).info.sourceUrl == st.info.sourceUrl
    ensures Run(st, ts).info.linkStats == st.info.linkStats
    ensures Run(st, ts).info.pageType == st.info.pageType
    ensures Run(st, ts).parsing.inputTypeCounts == st.parsing.inputTypeCounts
    decreases |ts|
  {
    if |ts| > 0 {
      RunKeeps(st, ts[..|ts| - 1]);
    }
  }

  /** The version is "4" exactly when some doctype matches the HTML 4
      pattern, and is otherwise what it was before; once "4" it stays. */
  lemma {:induction false} HtmlVersionOfRun(st: State, ts: seq<Token>)
    ensures Run(st, ts).info.htmlVersion ==
              if exists i :: 0 <= i < |ts| && IsHtml4Token(ts[i]) then "4" else st.info.htmlVersion
    decreases |ts|
  {
    if |ts| > 0 {
      HtmlVersionOfRun(st, ts[..|ts| - 1]);
      Html4TokenSnoc(ts);
    }
  }

  /** Some token is an HTML 4 doctype exactly when one of the earlier
      tokens is or the last one is. */
  lemma Html4TokenSnoc(ts: seq<Token>)
    requires |ts| > 0
    ensures var n := |ts| - 1;
      (exists i :: 0 <= i < |ts| && IsHtml4Token(ts[i])) <==>
      (exists i :: 0 <= i < n && IsHtml4Token(ts[..n][i])) || IsHtml4Token(ts[n])
  {
    var n := |ts| - 1;
    assert forall i :: 0 <= i < n ==> ts[..n][i] == ts[i];
  }

  /** The distinct hrefs the tokens contribute. */
  ghost function LinksIn(ts: seq<Token>): set<string> {
    set i | 0 <= i < |ts| && LinkOf(ts[i]).Some? :: LinkOf(ts[i]).value
  }

  /** The links of a sequence are those of all but its last token and
      those of the last. */
  lemma LinksSnoc(ts: seq<Token>)
    requires |ts| > 0
    ensures var n := |ts| - 1;
      LinksIn(ts) == LinksIn(ts[..n]) + (if LinkOf(ts[n]).Some? then {LinkOf(ts[n]).value} else {})
  {
    var n := |ts| - 1;
    assert forall i :: 0 <= i < n ==> ts[..n][i] == ts[i];
  }

  /** The link set grows by exactly the first href of every open `a` tag;
      repeated hrefs are kept once. */
  lemma {:induction false} LinksOfRun(st: State, ts: seq<Token>)
    ensures Run(st, ts).parsing.allLinks == st.parsing.allLinks + LinksIn(ts)
    decreases |ts|
  {
    if |ts| > 0 {
      var n := |ts| - 1;
      var p := ts[..n];
      LinksOfRun(st, p);
      LinksSnoc(ts);
      StepEffect(Run(st, p), ts[n]);
    }
  }

  /** The positions of the tokens that count a heading under `k`. */
  ghost function HeadingPositions(ts: seq<Token>, k: string): set<int> {
    set i | 0 <= i < |ts| && HeadingKey(ts[i]) == Some(k)
  }

  /** The heading positions of a sequence are those of all but its last
      token, plus the last one when it counts under `k`. */
  lemma HeadingsSnoc(ts: seq<Token>, k: string)
    requires |ts| > 0
    ensures var n := |ts| - 1;
      HeadingPositions(ts, k) == HeadingPositions(ts[..n], k) + (if HeadingKey(ts[n]) == Some(k) then {n} else {})
  {
    var n := |ts| - 1;
    assert forall i :: 0 <= i < n ==> ts[..n][i] == ts[i];
  }

  /** Each heading count grows by the number of open tags whose name
      matches the heading pattern and upper-cases to that key, and a key is
      present exactly when it was before or some such tag was seen. */
  lemma {:induction false} HeadingsOfRun(st: State, ts: seq<Token>)
    ensures forall k :: Count(Run(st, ts).info.headingsCount, k) ==
              Count(st.info.headingsCount, k) + |HeadingPositions(ts, k)|
    ensures forall k :: k in Run(st, ts).info.headingsCount <==>
              k in st.info.headingsCount || HeadingPositions(ts, k) != {}
    decreases |ts|
  {
    if |ts| > 0 {
      var n := |ts| - 1;
      var p := ts[..n];
      HeadingsOfRun(st, p);
      var prev := Run(st, p);
      assert Run(st, ts) == Step(prev, ts[n]);
      forall k
        ensures Count(Run(st, ts).info.headingsCount, k) ==
                  Count(st.info.headingsCount, k) + |HeadingPositions(ts, k)|
        ensures k in Run(st, ts).info.headingsCount <==>
                  k in st.info.headingsCount || HeadingPositions(ts, k) != {}
      {
        HeadingsSnoc(ts, k);
        StepHeading(prev, ts[n], k);
      }
    }
  }

  /** No end tag after position `j`. */
  ghost predicate NoEndTagAfter(ts: seq<Token>, j: int) {
    forall m :: 0 <= m < |ts| && j < m ==> !ts[m].EndTag?
  }

  /** The capture slot is open after `ts`: some open `title` tag has not
      been followed by an end tag, or the slot was open at the start and no
      end tag came. */
  ghost predicate SlotOpen(st: State, ts: seq<Token>) {
    || (exists j :: 0 <= j < |ts| && IsTitleOpen(ts[j]) && NoEndTagAfter(ts, j))
    || (st.parsing.currTag == "title" && NoEndTagAfter(ts, -1))
  }

  /** How the last token of a sequence decides whether the slot is open. */
  lemma SlotSnoc(st: State, ts: seq<Token>)
    requires |ts| > 0
    ensures var n := |ts| - 1;
      SlotOpen(st, ts) ==
        if IsTitleOpen(ts[n]) then true else if ts[n].EndTag? then false else SlotOpen(st, ts[..n])
  {
    var n := |ts| - 1;
    var p := ts[..n];
    var t := ts[n];
    assert forall i :: 0 <= i < n ==> p[i] == ts[i];
    if IsTitleOpen(t) {
      assert NoEndTagAfter(ts, n);
    } else if t.EndTag? {
      assert !NoEndTagAfter(ts, -1);
      assert forall j :: 0 <= j < n ==> !NoEndTagAfter(ts, j);
    } else {
      assert forall j :: -1 <= j < n ==> (NoEndTagAfter(ts, j) <==> NoEndTagAfter(p, j));
      if SlotOpen(st, ts) {
        if j :| 0 <= j < |ts| && IsTitleOpen(ts[j]) && NoEndTagAfter(ts, j) {
          assert j < n;
          assert IsTitleOpen(p[j]);
        }
      }
      if SlotOpen(st, p) {
        if j :| 0 <= j < |p| && IsTitleOpen(p[j]) && NoEndTagAfter(p, j) {
          assert IsTitleOpen(ts[j]);
        }
      }
    }
  }

  /** The slot after a run is "title" exactly when `SlotOpen` holds. */
  lemma {:induction false} SlotOfRun(st: State, ts: seq<Token>)
    ensures Run(st, ts).parsing.currTag == "title" <==> SlotOpen(st, ts)
    decreases |ts|
  {
    if |ts| > 0 {
      var n := |ts| - 1;
      var prev := Run(st, ts[..n]);
      SlotOfRun(st, ts[..n]);
      assert Run(st, ts) == Step(prev, ts[n]);
      StepEffect(prev, ts[n]);
      SlotSnoc(st, ts);
    }
  }

  /** The text token at `i` is captured as the title: the slot is open
      when it arrives. */
  ghost predicate Captured(st: State, ts: seq<Token>, i: int) {
    0 <= i < |ts| && ts[i].Text? && SlotOpen(st, ts[..i])
  }

  /** Capture of the earlier tokens does not depend on later ones; the
      last token is captured when it is text and the slot is open. */
  lemma CapturedSnoc(st: State, ts: seq<Token>)
    requires |ts| > 0
    ensures var n := |ts| - 1;
      forall i :: 0 <= i < n ==> (Captured(st, ts, i) <==> Captured(st, ts[..n], i))
    ensures var n := |ts| - 1;
      Captured(st, ts, n) <==> ts[n].Text? && SlotOpen(st, ts[..n])
  {
    var n := |ts| - 1;
    assert forall i :: 0 <= i < n ==> ts[..i] == ts[..n][..i] && ts[i] == ts[..n][i];
  }

  /** The title is the content of the last captured text token, or what it
      was before when no text token is captured. */
  lemma TitleOfRun(st: State, ts: seq<Token>)
    ensures (forall i :: !Captured(st, ts, i)) ==> Run(st, ts).info.title == st.info.title
    ensures forall i :: Captured(st, ts, i) && (forall m :: i < m ==> !Captured(st, ts, m)) ==>
              Run(st, ts).info.title == ts[i].content
  {
    TitleIsLastCapture(st, ts);
    LastCaptureFacts(st, ts);
    var r := LastCapture(st, ts);
    forall i | Captured(st, ts, i) && (forall m :: i < m ==> !Captured(st, ts, m))
      ensures Run(st, ts).info.title == ts[i].content
    {
      assert i <= r;
      assert !(i < r);
    }
  }

  /** The index of the last captured token, or -1 when none is. */
  ghost function LastCapture(st: State, ts: seq<Token>): (r: int)
    ensures -1 <= r < |ts| && (r >= 0 ==> ts[r].Text?)
    decreases |ts|
  {
    if |ts| == 0 then -1
    else if ts[|ts| - 1].Text? && SlotOpen(st, ts[..|ts| - 1]) then |ts| - 1
    else LastCapture(st, ts[..|ts| - 1])
  }

  /** `LastCapture` is captured, and no later token is. */
  lemma {:induction false} LastCaptureFacts(st: State, ts: seq<Token>)
    ensures LastCapture(st, ts) >= 0 ==> Captured(st, ts, LastCapture(st, ts))
    ensures forall m :: LastCapture(st, ts) < m ==> !Captured(st, ts, m)
    decreases |ts|
  {
    if |ts| > 0 {
      LastCaptureFacts(st, ts[..|ts| - 1]);
      CapturedSnoc(st, ts);
    }
  }

  /** The title is the text of the last captured token, or what it was
      before when none is captured. */
  lemma {:induction false} TitleIsLastCapture(st: State, ts: seq<Token>)
    ensures Run(st, ts).info.title ==
              if LastCapture(st, ts) < 0 then st.info.title else ts[LastCapture(st, ts)].content
    decreases |ts|
  {
    if |ts| > 0 {
      var n := |ts| - 1;
      var p := ts[..n];
      TitleIsLastCapture(st, p);
      if ts[n].Text? && SlotOpen(st, p) {
        CapturedLastSets(st, ts);
      } else {
        UncapturedLastKeeps(st, ts);
        assert LastCapture(st, ts) == LastCapture(st, p);
        assert LastCapture(st, p) < 0 || p[LastCapture(st, p)] == ts[LastCapture(st, p)];
      }
    }
  }

  /** A captured last token sets the title to its text. */
  lemma CapturedLastSets(st: State, ts: seq<Token>)
    requires |ts| > 0 && Captured(st, ts, |ts| - 1)
    ensures Run(st, ts).info.title == ts[|ts| - 1].content
  {
    var n := |ts| - 1;
    var prev := Run(st, ts[..n]);
    SlotOfRun(st, ts[..n]);
    assert Run(st, ts) == Step(prev, ts[n]);
    StepEffect(prev, ts[n]);
  }

  /** A last token that is not captured leaves the title as it was. */
  lemma UncapturedLastKeeps(st: State, ts: seq<Token>)
    requires |ts| > 0 && !Captured(st, ts, |ts| - 1)
    ensures Run(st, ts).info.title == Run(st, ts[..|ts| - 1]).info.title
  {
    var n := |ts| - 1;
    var prev := Run(st, ts[..n]);
    SlotOfRun(st, ts[..n]);
    assert Run(st, ts) == Step(prev, ts[n]);
    StepEffect(prev, ts[n]);
  }

  /** Without a `title` tag and with the slot not on `title`, the slot
      never opens and the title does not change. */
  lemma {:induction false} NoTitleTagKeepsTitle(st: State, ts: seq<Token>)
    requires st.parsing.currTag != "title"
    requires forall i :: 0 <= i < |ts| ==> !IsTitleOpen(ts[i])
    ensures Run(st, ts).parsing.currTag != "title"
    ensures Run(st, ts).info.title == st.info.title
    decreases |ts|
  {
    if |ts| > 0 {
      var n := |ts| - 1;
      NoTitleTagKeepsTitle(st, ts[..n]);
      assert Run(st, ts) == Step(Run(st, ts[..n]), ts[n]);
      StepEffect(Run(st, ts[..n]), ts[n]);
    }
  }

  /** A page without a `title` tag keeps the empty title of a fresh
      analysis. */
  lemma NoTitleTagNoTitle(info: AnalysisData, ts: seq<Token>)
    requires info.title == ""
    requires forall i :: 0 <= i < |ts| ==> !IsTitleOpen(ts[i])
    ensures Run(State(info, EmptyParsing), ts).info.title == ""
  {
    NoTitleTagKeepsTitle(State(info, EmptyParsing), ts);
  }

  /* ---------------------------------------------------------------- */
  /* Examples from the unit tests                                      */
  /* ---------------------------------------------------------------- */

  /** The HTML 4.0 Transitional doctype makes a page HTML 4; its text is
      written in two pieces, the second starting at the `HTML 4`. */
  lemma Html4DoctypeExample(v4: string)
    requires v4 == "HTML PUBLIC \"-//W3C//DTD " + "HTML 4.0 Transitional//EN\""
    ensures MatchesHtml4(v4)
  {
    var tail := "HTML 4.0 Transitional//EN\"";
    assert v4[25..] == tail;
    assert tail[0] == 'H' && tail[1] == 'T' && tail[2] == 'M' && tail[3] == 'L' && tail[4] == ' ' && tail[5] == '4';
    Html4Witness(v4, 25);
  }

  /** `HTML`, one space and `4` from `i` on match the doctype pattern. */
  lemma Html4Witness(s: string, i: nat)
    requires i + 6 <= |s| && s[i] == 'H' && s[i + 1] == 'T' && s[i + 2] == 'M' && s[i + 3] == 'L'
    requires s[i + 4] == ' ' && s[i + 5] == '4'
    ensures MatchesHtml4(s)
  {
    assert Html4At(s, i, i + 5);
  }

  /** The bare `HTML` doctype of an HTML 5 page does not match. */
  lemma Html5DoctypeExample(v5: string)
    requires v5 == "HTML\""
    ensures !MatchesHtml4(v5)
  {
    assert forall i, k :: !Html4At(v5, i, k);
  }

  /** `h1` to `h6` in either case are heading names, counted under the
      upper-cased name; `hr`, `title` and `a` are not. */
  lemma HeadingNameExamples()
    ensures IsHeadingName("h1") && IsHeadingName("H3") && IsHeadingName("h6")
    ensures Upper("h1") == "H1"
    ensures !IsHeadingName("hr") && !IsHeadingName("title") && !IsHeadingName("a")
  {
    assert HeadingAt("h1", 0) && HeadingAt("H3", 0) && HeadingAt("h6", 0);
    assert forall i :: !HeadingAt("hr", i);
    assert forall i :: !HeadingAt("title", i);
    assert forall i :: !HeadingAt("a", i);
  }
}

=== FILE: results.dfy ===
/** Optional values and success/failure results, used in place of Go's
    `nil` results and `(value, error)` pairs. */
module Results {

  datatype Option<+T> = None | Some(value: T) {

    /** The wrapped value, or `default` when there is none. */
    function GetOr(default: T): T {
      match this
      case Some(v) => v
      case None => default
    }
  }

  datatype Result<+T, +E> = Success(value: T) | Failure(error: E)
}

=== FILE: sorting.dfy ===
/** Go's ordering on strings and the `slices.Sort` the crawler applies to
    the invalid-link list. Go compares strings byte by byte; on valid UTF-8
    that is the same as comparing code points one by one, which is what
    `Le` does on sequences of characters. */
module Sorting {

  /** `a <= b` for Go strings: lexicographic, a proper prefix first. */
  predicate Le(a: string, b: string)
    decreases |a|
  {
    |a| == 0 || (|b| > 0 && (a[0] < b[0] || (a[0] == b[0] && Le(a[1..], b[1..]))))
  }

  lemma {:induction false} LeReflexive(a: string)
    ensures Le(a, a)
    decreases |a|
  {
    if |a| > 0 {
      LeReflexive(a[1..]);
    }
  }

  lemma {:induction false} LeTotal(a: string, b: string)
    ensures Le(a, b) || Le(b, a)
    decreases |a|
  {
    if |a| > 0 && |b| > 0 && a[0] == b[0] {
      LeTotal(a[1..], b[1..]);
    }
  }

  lemma {:induction false} LeAntisymmetric(a: string, b: string)
    requires Le(a, b) && Le(b, a)
    ensures a == b
    decreases |a|
  {
    if |a| > 0 {
      LeAntisymmetric(a[1..], b[1..]);
      assert a == [a[0]] + a[1..];
      assert b == [b[0]] + b[1..];
    }
  }

  lemma {:induction false} LeTransitive(a: string, b: string, c: string)
    requires Le(a, b) && Le(b, c)
    ensures Le(a, c)
    decreases |a|
  {
    if |a| > 0 && a[0] == b[0] && b[0] == c[0] {
      LeTransitive(a[1..], b[1..], c[1..]);
    }
  }

  /** Non-decreasing order, stated for every pair of positions. */
  predicate Sorted(s: seq<string>) {
    forall i, j :: 0 <= i < j < |s| ==> Le(s[i], s[j])
  }

  /** `h` may be put in front of a sorted sequence whose elements are all
      at least `h`. */
  lemma PrependSorted(h: string, s: seq<string>)
    requires Sorted(s)
    requires forall y :: y in s ==> Le(h, y)
    ensures Sorted([h] + s)
  {
    var r := [h] + s;
    forall i, j | 0 <= i < j < |r|
      ensures Le(r[i], r[j])
    {
      if i > 0 {
        assert r[i] == s[i - 1] && r[j] == s[j - 1];
      } else {
        assert r[j] in s;
      }
    }
  }

  /** Inserts `x` into a sorted sequence, keeping it sorted. */
  function Insert(x: string, s: seq<string>): (r: seq<string>)
    requires Sorted(s)
    ensures Sorted(r)
    ensures multiset(r) == multiset(s) + multiset{x}
  {
    if |s| == 0 then [x]
    else if Le(x, s[0]) then
      assert forall y :: y in s ==> Le(x, y) by {
        forall y | y in s
          ensures Le(x, y)
        {
          var k :| 0 <= k < |s| && s[k] == y;
          if k > 0 {
            LeTransitive(x, s[0], y);
          }
        }
      }
      PrependSorted(x, s);
      [x] + s
    else
      var rest := Insert(x, s[1..]);
      LeTotal(x, s[0]);
      assert forall y :: y in rest ==> Le(s[0], y) by {
        forall y | y in rest
          ensures Le(s[0], y)
        {
          assert y in multiset(rest);
          if y != x {
            assert y in multiset(s[1..]);
            assert y in s[1..];
          }
        }
      }
      PrependSorted(s[0], rest);
      assert s == [s[0]] + s[1..];
      [s[0]] + rest
  }

  /** `slices.Sort` on strings: the sorted permutation of `s`. */
  function SortStrings(s: seq<string>): (r: seq<string>)
    ensures Sorted(r)
    ensures multiset(r) == multiset(s)
  {
    if |s| == 0 then []
    else
      assert s == [s[0]] + s[1..];
      Insert(s[0], SortStrings(s[1..]))
  }

  /** A sorted sequence is determined by its elements: two sorted
      sequences holding the same multiset are equal. */
  lemma {:induction false} SortedUnique(a: seq<string>, b: seq<string>)
    requires Sorted(a) && Sorted(b)
    requires multiset(a) == multiset(b)
    ensures a == b
    decreases |a|
  {
    if |a| == 0 {
      assert |multiset(b)| == 0;
    } else {
      SameFirst(a, b);
      DropFirst(a);
      DropFirst(b);
      SortedUnique(a[1..], b[1..]);
    }
  }

  /** Two non-empty sorted sequences with the same elements start with
      the same element. */
  lemma SameFirst(a: seq<string>, b: seq<string>)
    requires Sorted(a) && Sorted(b) && |a| > 0
    requires multiset(a) == multiset(b)
    ensures |b| > 0 && a[0] == b[0]
  {
    assert a[0] in multiset(a);
    assert a[0] in multiset(b);
    var k :| 0 <= k < |b| && b[k] == a[0];
    assert b[0] in multiset(a);
    var m :| 0 <= m < |a| && a[m] == b[0];
    if k > 0 {
      assert Le(b[0], a[0]);
    } else {
      LeReflexive(b[0]);
    }
    if m > 0 {
      assert Le(a[0], b[0]);
    } else {
      LeReflexive(a[0]);
    }
    LeAntisymmetric(a[0], b[0]);
  }

  /** Taking the first element out of `a`. */
  lemma DropFirst<T>(a: seq<T>)
    requires |a| > 0
    ensures a == [a[0]] + a[1..]
    ensures multiset(a[1..]) == multiset(a) - multiset{a[0]}
  {
    assert a == [a[0]] + a[1..];
  }

  /** Sorting forgets the order of its input: permutations sort alike. */
  lemma SortIgnoresOrder(a: seq<string>, b: seq<string>)
    requires multiset(a) == multiset(b)
    ensures SortStrings(a) == SortStrings(b)
  {
    SortedUnique(SortStrings(a), SortStrings(b));
  }
}

=== FILE: strings.dfy ===
/** Text helpers standing for the parts of Go's `strings` package and of
    its regular-expression syntax that the analyzer relies on. Strings are
    sequences of Unicode scalar values (Go runes). */
module Strings {

  /** `p` occurs in `s` starting at index `i`. */
  predicate OccursAt(s: string, p: string, i: int) {
    0 <= i && i + |p| <= |s| && s[i..i + |p|] == p
  }

  /** `strings.Contains`. */
  predicate Contains(s: string, p: string) {
    exists i | 0 <= i <= |s| - |p| :: OccursAt(s, p, i)
  }

  /** `strings.HasPrefix`. */
  predicate StartsWith(s: string, p: string) {
    |p| <= |s| && s[..|p|] == p
  }

  /** `strings.HasSuffix`. */
  predicate EndsWith(s: string, p: string) {
    |p| <= |s| && s[|s| - |p|..] == p
  }

  /** The last index at or below `i` where `p` occurs in `s`, or -1. */
  function LastIndexFrom(s: string, p: string, i: int): (r: int)
    requires -1 <= i < |s|
    ensures -1 <= r <= i
    ensures r >= 0 ==> OccursAt(s, p, r)
    ensures forall j :: r < j <= i ==> !OccursAt(s, p, j)
    decreases i + 1
  {
    if i < 0 then -1
    else if OccursAt(s, p, i) then i
    else LastIndexFrom(s, p, i - 1)
  }

  /** `strings.LastIndex` for a non-empty needle: the start of the last
      occurrence of `p` in `s`, or -1 when there is none. */
  function LastIndex(s: string, p: string): (r: int)
    requires |p| > 0
    ensures -1 <= r < |s| && (r >= 0 ==> r + |p| <= |s|)
    ensures r == -1 <==> forall j :: !OccursAt(s, p, j)
    ensures r >= 0 ==> OccursAt(s, p, r) && forall j :: r < j ==> !OccursAt(s, p, j)
  {
    LastIndexFrom(s, p, |s| - 1)
  }

  /** ASCII lower-casing of one character. */
  function LowerChar(c: char): char {
    if 'A' <= c <= 'Z' then (c as int + 32) as char else c
  }

  /** ASCII upper-casing of one character. */
  function UpperChar(c: char): char {
    if 'a' <= c <= 'z' then (c as int - 32) as char else c
  }

  /** `strings.ToLower`, restricted to ASCII letters. */
  function Lower(s: string): (r: string)
    ensures |r| == |s|
    ensures forall i :: 0 <= i < |s| ==> r[i] == LowerChar(s[i])
  {
    seq(|s|, i requires 0 <= i < |s| => LowerChar(s[i]))
  }

  /** `strings.ToUpper`, restricted to ASCII letters. */
  function Upper(s: string): (r: string)
    ensures |r| == |s|
    ensures forall i :: 0 <= i < |s| ==> r[i] == UpperChar(s[i])
  {
    seq(|s|, i requires 0 <= i < |s| => UpperChar(s[i]))
  }

  /** Character `c` matches the lower-case ASCII letter `letter` under the
      `(?i)` flag of Go's regular expressions, which uses Unicode simple case
      folding: besides the upper-case form, LATIN SMALL LETTER LONG S folds to
      `s` and KELVIN SIGN folds to `k`. */
  predicate FoldsTo(c: char, letter: char) {
    || c == letter
    || c == UpperChar(letter)
    || (letter == 's' && c == '\U{017F}')
    || (letter == 'k' && c == '\U{212A}')
  }

  /** `\d` in Go's regular expressions (ASCII only). */
  predicate IsDigit(c: char) {
    '0' <= c <= '9'
  }

  /** `\s` in Go's regular expressions: `[\t\n\f\r ]`. */
  predicate IsSpace(c: char) {
    c == '\t' || c == '\n' || c == '\U{000C}' || c == '\r' || c == ' '
  }
}

=== FILE: types.dfy ===
/** The analyzer's shared data model: the result record, its link
    statistics, the transient parsing state and the page-type constants. */
module Types {

  /** The two page types a result can carry. */
  const LoginForm: string := "LoginForm"
  const Unknown: string := "Unknown"

  /** Link statistics in the shape the crawler and its tests use. Counts
      only ever grow from zero, so they are natural numbers. */
  datatype LinkStats = LinkStats(
    internalLinkCount: nat,
    externalLinkCount: nat,
    invalidLinkCount: nat,
    invalidLinks: seq<string>)

  /** The zero value of `LinkStats`. */
  const ZeroStats: LinkStats := LinkStats(0, 0, 0, [])

  /** The result of analysing one page. */
  datatype AnalysisData = AnalysisData(
    sourceUrl: string,
    htmlVersion: string,
    title: string,
    headingsCount: map<string, nat>,
    linkStats: LinkStats,
    pageType: string)
  {
    /** The identifier of an analysis is the URL it was started with. */
    function ID(): string {
      sourceUrl
    }
  }

  /** State owned by one extraction run and dropped once the run ends: the
      tag whose text is being captured, the distinct hrefs seen, and counts
      of `input` types. */
  datatype ParsingState = ParsingState(
    allLinks: set<string>,
    currTag: string,
    inputTypeCounts: map<string, nat>)

  /** The zero value of `parsingState`. */
  const EmptyParsing: ParsingState := ParsingState({}, "", map[])

  /** The count stored under `k`, reading a missing key as zero like a Go
      map lookup does. */
  function Count(m: map<string, nat>, k: string): nat {
    if k in m then m[k] else 0
  }

  /** A fresh analysis of `url`: HTML 5 until a doctype says otherwise, no
      title, no headings, zero link statistics, no page type yet. */
  function NewAnalysis(url: string): (r: AnalysisData)
    ensures r.sourceUrl == url
    ensures r.htmlVersion == "5" && r.title == "" && r.pageType == ""
    ensures r.headingsCount == map[]
    ensures r.linkStats.invalidLinkCount == |r.linkStats.invalidLinks| == 0
    ensures r.linkStats.internalLinkCount + r.linkStats.externalLinkCount == 0
  {
    AnalysisData(url, "5", "", map[], ZeroStats, "")
  }

  /** The page-type heuristic over the `input` type counts: a login form has
      exactly one password field and exactly one submit control. No function
      of the analyzer computes it; the rule is read from the expected page
      types in the test table at analyze_test.go:293-363. */
  function PageTypeOf(inputTypeCounts: map<string, nat>): (r: string)
    ensures r == LoginForm || r == Unknown
    ensures r == LoginForm <==> Count(inputTypeCounts, "password") == 1 && Count(inputTypeCounts, "submit") == 1
  {
    if Count(inputTypeCounts, "password") == 1 && Count(inputTypeCounts, "submit") == 1 then LoginForm
    else Unknown
  }

  /** The login-form test cases: one password field and one submit control
      make a login form; only a submit, only a password, two passwords or
      two submits do not. */
  lemma PageTypeExamples()
    ensures PageTypeOf(map["text" := 1, "password" := 1, "submit" := 1]) == LoginForm
    ensures PageTypeOf(map["text" := 1, "submit" := 1]) == Unknown
    ensures PageTypeOf(map["text" := 1, "password" := 1]) == Unknown
    ensures PageTypeOf(map["text" := 1, "password" := 2, "submit" := 1]) == Unknown
    ensures PageTypeOf(map["text" := 1, "password" := 1, "submit" := 2]) == Unknown
  {
  }

  /** An analysis started for `url` is identified by `url`, and identifiers
      of analyses of different URLs differ. */
  lemma IdentifiesSource(url: string, other: string)
    ensures NewAnalysis(url).ID() == url
    ensures url != other ==> NewAnalysis(url).ID() != NewAnalysis(other).ID()
  {
  }
}

=== FILE: urls.dfy ===
/** URL joining, link classification and resolution of an href against the
    page it was found on (analyzer/utils.go). */
module Urls {
  import opened Results
  import opened Strings

  /** Why an href could not be resolved. */
  datatype UrlError =
    | EmptySource      // the page URL is empty
    | InvalidBase      // the page URL has no http(s)://host part
    | UnsupportedHref  // an href with "://" but no http(s)://host part

  /* ---------------------------------------------------------------- */
  /* Joining                                                           */
  /* ---------------------------------------------------------------- */

  /** `s` without one trailing slash, if it has one. */
  function DropTrailingSlash(s: string): string {
    if EndsWith(s, "/") then s[..|s| - 1] else s
  }

  /** `s` without one leading slash, if it has one. */
  function DropLeadingSlash(s: string): string {
    if StartsWith(s, "/") then s[1..] else s
  }

  /** `concatUrl`: joins `base` and a non-empty `path`, dropping one slash
      when both parts bring one at the join and inserting one when neither
      does; an empty `path` leaves `base` as it is. */
  function ConcatUrl(base: string, path: string): (r: string)
    ensures path == "" ==> r == base
    ensures path != "" ==> r == DropTrailingSlash(base) + "/" + DropLeadingSlash(path)
    ensures StartsWith(r, base)
  {
    if path == "" then base
    else
      var startsWithSlash := StartsWith(path, "/");
      var endsWithSlash := EndsWith(base, "/");
      var tail := if endsWithSlash && startsWithSlash then path[1..]
        else if !endsWithSlash && !startsWithSlash then "/" + path
        else path;
      assert endsWithSlash ==> base == base[..|base| - 1] + "/";
      assert startsWithSlash ==> path == "/" + path[1..];
      assert (base + tail)[..|base|] == base;
      base + tail
  }

  /** The unit-test examples with an empty path: the base is kept. */
  lemma ConcatEmptyPathExamples()
    ensures ConcatUrl("", "") == ""
    ensures ConcatUrl("www.a.com/", "") == "www.a.com/"
    ensures ConcatUrl("www.a.com", "") == "www.a.com"
  {
  }

  /** The unit-test examples that join: one slash whatever the parts
      bring. */
  lemma ConcatJoinExamples(base: string, slashed: string)
    requires base == "www.a.com" && slashed == "www.a.com/"
    ensures ConcatUrl(base, "x/y/z") == "www.a.com/x/y/z"
    ensures ConcatUrl(base, "/x/y/z") == "www.a.com/x/y/z"
    ensures ConcatUrl(slashed, "/x/y/z") == "www.a.com/x/y/z"
  {
    assert slashed[|slashed| - 1..] == "/";
  }

  /* ---------------------------------------------------------------- */
  /* Classification                                                    */
  /* ---------------------------------------------------------------- */

  /** `isAbsoluteUrl`: the href names a scheme. */
  predicate IsAbsoluteUrl(href: string) {
    Contains(href, "://")
  }

  /** `isRelativeUrl`: the href is relative to the site root. */
  predicate IsRelativeUrl(href: string) {
    StartsWith(href, "/")
  }

  /** `isAnchorLink`: the href is a fragment of the same page. */
  predicate IsAnchorLink(href: string) {
    StartsWith(href, "#")
  }

  /** The three classifiers read characters of the raw href only; anchors
      and site-relative hrefs exclude each other, while an href may be both
      an anchor and absolute (`#x://y`). */
  lemma ClassifiersByCharacter(href: string)
    ensures IsAnchorLink(href) <==> |href| > 0 && href[0] == '#'
    ensures IsRelativeUrl(href) <==> |href| > 0 && href[0] == '/'
    ensures IsAbsoluteUrl(href) <==>
      exists i :: 0 <= i < |href| - 2 && href[i] == ':' && href[i + 1] == '/' && href[i + 2] == '/'
    ensures !(IsAnchorLink(href) && IsRelativeUrl(href))
  {
    if IsAbsoluteUrl(href) {
      var i :| 0 <= i <= |href| - 3 && OccursAt(href, "://", i);
      assert href[i..i + 3][0] == href[i] && href[i..i + 3][1] == href[i + 1] && href[i..i + 3][2] == href[i + 2];
    }
    if exists i :: 0 <= i < |href| - 2 && href[i] == ':' && href[i + 1] == '/' && href[i + 2] == '/' {
      var i :| 0 <= i < |href| - 2 && href[i] == ':' && href[i + 1] == '/' && href[i + 2] == '/';
      assert href[i..i + 3] == "://";
      assert OccursAt(href, "://", i);
      assert Contains(href, "://");
    }
  }

  /* ---------------------------------------------------------------- */
  /* The base-URL pattern `(?i)(https?://[^/]+)/?`                    */
  /* ---------------------------------------------------------------- */

  /** `http`, in any letter case, starts at `i`. */
  predicate HttpAt(s: string, i: int) {
    0 <= i && i + 4 <= |s|
    && FoldsTo(s[i], 'h') && FoldsTo(s[i + 1], 't') && FoldsTo(s[i + 2], 't') && FoldsTo(s[i + 3], 'p')
  }

  /** `://` starts at `j` and is followed by a character other than `/`. */
  predicate HostFollowsAt(s: string, j: int) {
    0 <= j && j + 3 < |s| && s[j] == ':' && s[j + 1] == '/' && s[j + 2] == '/' && s[j + 3] != '/'
  }

  /** The pattern matches with its leftmost character at `i`: `http`, an
      optional `s`, `://` and at least one character other than `/`. */
  predicate MatchAt(s: string, i: int) {
    HttpAt(s, i)
    && (HostFollowsAt(s, i + 4) || (i + 4 < |s| && FoldsTo(s[i + 4], 's') && HostFollowsAt(s, i + 5)))
  }

  /** Index of the first host character of the match at `i`. */
  function HostStart(s: string, i: int): (h: int)
    requires MatchAt(s, i)
    ensures i + 7 <= h <= i + 8 && h < |s|
    ensures s[h] != '/' && s[h - 1] == '/' && s[h - 2] == '/' && s[h - 3] == ':'
  {
    if HostFollowsAt(s, i + 4) then i + 7 else i + 8
  }

  /** Whether the pattern matches at `i` depends only on the characters
      from `i` to the first host character. */
  lemma MatchTransfer(s: string, i: int, t: string, j: int)
    requires MatchAt(s, i)
    requires 0 <= j && j + (HostStart(s, i) - i) < |t|
    requires t[j..j + (HostStart(s, i) - i) + 1] == s[i..HostStart(s, i) + 1]
    ensures MatchAt(t, j) && HostStart(t, j) - j == HostStart(s, i) - i
  {
    var d := HostStart(s, i) - i;
    var w := s[i..HostStart(s, i) + 1];
    assert forall m :: 0 <= m <= d ==> t[j + m] == w[m] == s[i + m];
  }

  /** The end of the run of non-slash characters starting at `j`. */
  function RunEnd(s: string, j: int): (k: int)
    requires 0 <= j <= |s|
    ensures j <= k <= |s| && (k == |s| || s[k] == '/')
    ensures forall m :: j <= m < k ==> s[m] != '/'
    decreases |s| - j
  {
    if j == |s| || s[j] == '/' then j else RunEnd(s, j + 1)
  }

  /** The leftmost match at or after `i`. */
  function FirstMatch(s: string, i: int): (r: Option<int>)
    requires 0 <= i <= |s|
    ensures r.None? <==> forall j :: i <= j ==> !MatchAt(s, j)
    ensures r.Some? ==> i <= r.value && MatchAt(s, r.value)
    ensures r.Some? ==> forall j :: i <= j < r.value ==> !MatchAt(s, j)
    decreases |s| - i
  {
    if i == |s| then None
    else if MatchAt(s, i) then Some(i)
    else FirstMatch(s, i + 1)
  }

  /** `g` is a base URL whose only slashes are those of `://`: it
      matches at its start, and no slash follows its host's first
      character. */
  predicate SlashFreeOrigin(g: string) {
    MatchAt(g, 0) && g[|g| - 1] != '/'
    && forall m :: HostStart(g, 0) <= m < |g| ==> g[m] != '/'
  }

  /** `g` is the group of the leftmost match of `s`, which sits at `i`:
      no match starts earlier, and `g` runs up to the next slash or the
      end of `s`. */
  predicate LeftmostGroup(s: string, g: string, i: int) {
    MatchAt(s, i) && (forall j :: 0 <= j < i ==> !MatchAt(s, j))
    && OccursAt(s, g, i) && (i + |g| == |s| || s[i + |g|] == '/')
  }

  /** `baseUrlRegex.FindStringSubmatch(s)[1]`: the scheme and host of the
      leftmost match, or `None` when the pattern does not occur in `s`. */
  function BaseMatch(s: string): (r: Option<string>)
    ensures r.None? <==> forall i :: !MatchAt(s, i)
  {
    match FirstMatch(s, 0)
    case None => None
    case Some(i) => Some(s[i..RunEnd(s, HostStart(s, i))])
  }

  /** The group `BaseMatch` finds is the leftmost occurrence of the
      pattern, extended up to the next slash or the end of the URL; it is
      itself a base URL whose only slashes are those of `://`. */
  lemma BaseMatchGroup(s: string)
    requires BaseMatch(s).Some?
    ensures SlashFreeOrigin(BaseMatch(s).value)
    ensures exists i :: LeftmostGroup(s, BaseMatch(s).value, i)
  {
    GroupFacts(s, FirstMatch(s, 0).value);
  }

  /** The group of a match at `i` that no earlier match precedes. */
  lemma GroupFacts(s: string, i: int)
    requires MatchAt(s, i) && forall j :: 0 <= j < i ==> !MatchAt(s, j)
    ensures var g := s[i..RunEnd(s, HostStart(s, i))];
      SlashFreeOrigin(g) && LeftmostGroup(s, g, i)
  {
    var h := HostStart(s, i);
    var g := s[i..RunEnd(s, h)];
    assert g[0..h - i + 1] == s[i..h + 1];
    MatchTransfer(s, i, g, 0);
    assert forall m :: HostStart(g, 0) <= m < |g| ==> g[m] == s[i + m];
  }

  /** A URL keeps every base-URL match when more text is appended. */
  lemma MatchSurvivesAppend(s: string, t: string)
    requires BaseMatch(s).Some?
    ensures BaseMatch(s + t).Some?
  {
    var i := FirstMatch(s, 0).value;
    var h := HostStart(s, i);
    assert (s + t)[i..h + 1] == s[i..h + 1];
    MatchTransfer(s, i, s + t, i);
  }

  /* ---------------------------------------------------------------- */
  /* Resolution                                                        */
  /* ---------------------------------------------------------------- */

  /** `getFinalUrl`: the absolute URL to probe for `href` found on the page
      `sourceUrl`, or why there is none. It fails exactly when the page URL
      has no http(s) base, or when the href names a scheme but has no
      http(s) base itself. */
  function GetFinalUrl(href: string, sourceUrl: string): (r: Result<string, UrlError>)
    ensures r.Failure? <==>
      BaseMatch(sourceUrl).None? || (href != "" && IsAbsoluteUrl(href) && BaseMatch(href).None?)
  {
    if sourceUrl == "" then Failure(EmptySource)
    else match BaseMatch(sourceUrl)
      case None => Failure(InvalidBase)
      case Some(baseUrl) =>
        if href == "" then Success(sourceUrl)
        else if IsAbsoluteUrl(href) then
          if BaseMatch(href).None? then Failure(UnsupportedHref) else Success(href)
        else if IsAnchorLink(href) then Success(sourceUrl + href)
        else if IsRelativeUrl(href) then Success(ConcatUrl(baseUrl, href))
        else
          var pos := LastIndex(sourceUrl, "/");
          var dpos := LastIndex(sourceUrl, "//");
          if pos > 0 && dpos < pos - 1 then Success(sourceUrl[..pos + 1] + href)
          else Success(ConcatUrl(sourceUrl, href))
  }

  /** The page URL is checked before the href is looked at: a page URL
      without an http(s) base fails whatever the href, with `EmptySource`
      for the empty URL and `InvalidBase` otherwise. */
  lemma SourceCheckedFirst(href: string, other: string, sourceUrl: string)
    requires BaseMatch(sourceUrl).None?
    ensures GetFinalUrl(href, sourceUrl) == GetFinalUrl(other, sourceUrl)
    ensures GetFinalUrl(href, sourceUrl) == Failure(if sourceUrl == "" then EmptySource else InvalidBase)
  {
  }

  /** An href naming a scheme is returned verbatim when it has an http(s)
      base of its own and rejected otherwise; it is never compared with the
      page URL, so every valid page URL gives the same answer. */
  lemma AbsoluteHrefVerbatim(href: string, sourceUrl: string, otherSource: string)
    requires BaseMatch(sourceUrl).Some? && BaseMatch(otherSource).Some?
    requires IsAbsoluteUrl(href)
    ensures GetFinalUrl(href, sourceUrl) == GetFinalUrl(href, otherSource)
    ensures GetFinalUrl(href, sourceUrl) ==
      if BaseMatch(href).Some? then Success(href) else Failure(UnsupportedHref)
  {
    assert href != "";
  }

  /** Against a valid page URL, the empty href is the page itself and an
      anchor is appended to the page URL as it stands. */
  lemma EmptyAndAnchorHrefs(href: string, sourceUrl: string)
    requires BaseMatch(sourceUrl).Some?
    ensures GetFinalUrl("", sourceUrl) == Success(sourceUrl)
    ensures IsAnchorLink(href) && !IsAbsoluteUrl(href) ==> GetFinalUrl(href, sourceUrl) == Success(sourceUrl + href)
  {
  }

  /** A site-relative href is appended to the scheme and host of the page
      URL; since the host part never ends in a slash, no slash is lost or
      doubled. */
  lemma SiteRelativeUsesOrigin(href: string, sourceUrl: string)
    requires BaseMatch(sourceUrl).Some?
    requires IsRelativeUrl(href) && !IsAbsoluteUrl(href)
    ensures GetFinalUrl(href, sourceUrl) == Success(BaseMatch(sourceUrl).value + href)
  {
  }

  /** An occurrence of `/` is a slash character. */
  lemma SlashAt(s: string, j: int)
    ensures OccursAt(s, "/", j) <==> 0 <= j < |s| && s[j] == '/'
  {
    if 0 <= j < |s| && s[j] == '/' {
      assert s[j..j + 1] == "/";
    }
    if OccursAt(s, "/", j) {
      assert s[j..j + 1][0] == s[j];
    }
  }

  /** An occurrence of `//` is two slash characters. */
  lemma PairAt(s: string, j: int)
    ensures OccursAt(s, "//", j) <==> 0 <= j < |s| - 1 && s[j] == '/' && s[j + 1] == '/'
  {
    if 0 <= j < |s| - 1 && s[j] == '/' && s[j + 1] == '/' {
      assert s[j..j + 2] == "//";
    }
    if OccursAt(s, "//", j) {
      assert s[j..j + 2][0] == s[j] && s[j..j + 2][1] == s[j + 1];
    }
  }

  /** The last slash of a URL with a base match at `i` lies past the
      match's `://`, and it is preceded by another slash exactly when
      `LastIndex(.., "//")` finds the pair ending at it. */
  lemma LastSlashAfterMatch(s: string, i: int)
    requires MatchAt(s, i)
    ensures LastIndex(s, "/") >= HostStart(s, i) - 1 >= 6
    ensures var pos := LastIndex(s, "/");
      s[pos] == '/' && (LastIndex(s, "//") < pos - 1 <==> s[pos - 1] != '/')
  {
    LastSlashAtLeast(s, HostStart(s, i) - 1);
    LastPair(s);
  }

  /** The last slash lies at or after any slash. */
  lemma LastSlashAtLeast(s: string, j: int)
    requires 0 <= j < |s| && s[j] == '/'
    ensures j <= LastIndex(s, "/") && s[LastIndex(s, "/")] == '/'
  {
    SlashAt(s, j);
    SlashAt(s, LastIndex(s, "/"));
  }

  /** The last `//` ends at the last slash exactly when the character
      before the last slash is a slash too. */
  lemma LastPair(s: string)
    requires LastIndex(s, "/") >= 1
    ensures var pos := LastIndex(s, "/");
      LastIndex(s, "//") < pos - 1 <==> s[pos - 1] != '/'
  {
    var pos := LastIndex(s, "/");
    LastPairBeforeLastSlash(s);
    if s[pos - 1] == '/' {
      PairAt(s, pos - 1);
    } else {
      PairAt(s, LastIndex(s, "//"));
    }
  }

  /** The last `//` ends at or before the last slash. */
  lemma LastPairBeforeLastSlash(s: string)
    ensures LastIndex(s, "//") >= 0 ==> LastIndex(s, "//") < LastIndex(s, "/")
  {
    var dpos := LastIndex(s, "//");
    if dpos >= 0 {
      PairAt(s, dpos);
      SlashAt(s, dpos + 1);
    }
  }

  /** The last slash of a valid page URL lies at or after its `://`, and it
      is preceded by another slash exactly when `LastIndex(.., "//")` finds
      the pair ending at it. */
  lemma LastSlashFacts(sourceUrl: string)
    requires BaseMatch(sourceUrl).Some?
    ensures LastIndex(sourceUrl, "/") >= 6
    ensures var pos := LastIndex(sourceUrl, "/");
      (LastIndex(sourceUrl, "//") < pos - 1 <==> sourceUrl[pos - 1] != '/')
  {
    LastSlashAfterMatch(sourceUrl, FirstMatch(sourceUrl, 0).value);
  }

  /** A path-relative href replaces whatever follows the last slash of the
      page URL, unless that slash is the second of a pair; then the href is
      joined onto the whole page URL with one slash. */
  lemma PathRelativeResolution(href: string, sourceUrl: string)
    requires BaseMatch(sourceUrl).Some?
    requires href != "" && !IsAbsoluteUrl(href) && !IsAnchorLink(href) && !IsRelativeUrl(href)
    ensures LastIndex(sourceUrl, "/") >= 6
    ensures var pos := LastIndex(sourceUrl, "/");
      GetFinalUrl(href, sourceUrl) ==
        if sourceUrl[pos - 1] != '/' then Success(sourceUrl[..pos + 1] + href)
        else if EndsWith(sourceUrl, "/") then Success(sourceUrl + href)
        else Success(sourceUrl + "/" + href)
  {
    LastSlashFacts(sourceUrl);
  }

  /** Every resolved URL is itself an http(s) URL (it has a base match) and
      ends with the href it was resolved from. */
  lemma ResolvedIsHttpUrl(href: string, sourceUrl: string)
    requires GetFinalUrl(href, sourceUrl).Success?
    ensures BaseMatch(GetFinalUrl(href, sourceUrl).value).Some?
    ensures EndsWith(GetFinalUrl(href, sourceUrl).value, href)
  {
    if href == "" {
      EmptyAndAnchorHrefs(href, sourceUrl);
    } else if IsAbsoluteUrl(href) {
      AbsoluteHrefVerbatim(href, sourceUrl, sourceUrl);
    } else if IsAnchorLink(href) {
      EmptyAndAnchorHrefs(href, sourceUrl);
      MatchSurvivesAppend(sourceUrl, href);
      AppendEndsWith(sourceUrl, href);
    } else if IsRelativeUrl(href) {
      SiteRelativeUsesOrigin(href, sourceUrl);
      OriginThenHref(sourceUrl, href);
    } else {
      PathRelativeIsHttpUrl(href, sourceUrl);
    }
  }

  /** The origin of an http(s) URL followed by an href is an http(s) URL
      ending with the href. */
  lemma OriginThenHref(sourceUrl: string, href: string)
    requires BaseMatch(sourceUrl).Some?
    ensures BaseMatch(BaseMatch(sourceUrl).value + href).Some?
    ensures EndsWith(BaseMatch(sourceUrl).value + href, href)
  {
    var base := BaseMatch(sourceUrl).value;
    BaseMatchGroup(sourceUrl);
    FirstMatchOf(base);
    MatchSurvivesAppend(base, href);
    AppendEndsWith(base, href);
  }

  /** The path-relative case of `ResolvedIsHttpUrl`. */
  lemma PathRelativeIsHttpUrl(href: string, sourceUrl: string)
    requires BaseMatch(sourceUrl).Some?
    requires href != "" && !IsAbsoluteUrl(href) && !IsAnchorLink(href) && !IsRelativeUrl(href)
    ensures GetFinalUrl(href, sourceUrl).Success?
    ensures BaseMatch(GetFinalUrl(href, sourceUrl).value).Some?
    ensures EndsWith(GetFinalUrl(href, sourceUrl).value, href)
  {
    PathRelativeResolution(href, sourceUrl);
    PathRelativeCases(href, sourceUrl);
  }

  /** The three results a path-relative href can resolve to are http(s)
      URLs ending with the href. */
  lemma PathRelativeCases(href: string, sourceUrl: string)
    requires BaseMatch(sourceUrl).Some? && LastIndex(sourceUrl, "/") >= 6
    ensures var pos := LastIndex(sourceUrl, "/");
      var r := if sourceUrl[pos - 1] != '/' then sourceUrl[..pos + 1] + href
               else if EndsWith(sourceUrl, "/") then sourceUrl + href
               else sourceUrl + "/" + href;
      BaseMatch(r).Some? && EndsWith(r, href)
  {
    var pos := LastIndex(sourceUrl, "/");
    if sourceUrl[pos - 1] != '/' {
      NoSlashAfterLast(sourceUrl);
      var i := SomeMatch(sourceUrl);
      KeptDirectoryIsHttpUrl(sourceUrl, href, i, pos);
    } else {
      JoinedKeepsBase(sourceUrl, href);
    }
  }

  /** Appending an href, with or without a slash before it, to an http(s)
      URL gives an http(s) URL ending with the href. */
  lemma JoinedKeepsBase(s: string, href: string)
    requires BaseMatch(s).Some?
    ensures BaseMatch(s + href).Some? && EndsWith(s + href, href)
    ensures BaseMatch(s + "/" + href).Some? && EndsWith(s + "/" + href, href)
  {
    MatchSurvivesAppend(s, href);
    AppendEndsWith(s, href);
    assert s + "/" + href == s + ("/" + href);
    MatchSurvivesAppend(s, "/" + href);
    AppendEndsWith(s + "/", href);
  }

  /** Cutting a URL with a match at `i` after a slash that is the last
      one and is not preceded by another slash keeps a base match. */
  lemma KeptDirectoryIsHttpUrl(sourceUrl: string, href: string, i: int, pos: int)
    requires MatchAt(sourceUrl, i)
    requires 0 < pos < |sourceUrl| && sourceUrl[pos] == '/' && sourceUrl[pos - 1] != '/'
    requires forall m :: pos < m < |sourceUrl| ==> sourceUrl[m] != '/'
    ensures BaseMatch(sourceUrl[..pos + 1] + href).Some?
    ensures EndsWith(sourceUrl[..pos + 1] + href, href)
  {
    SlashPastHost(sourceUrl, i, pos);
    PrefixThenHref(sourceUrl, i, pos + 1, href);
  }

  /** A last slash that no other slash precedes lies past the first host
      character of any match. */
  lemma SlashPastHost(s: string, i: int, pos: int)
    requires MatchAt(s, i)
    requires 0 < pos < |s| && s[pos] == '/' && s[pos - 1] != '/'
    requires forall m :: pos < m < |s| ==> s[m] != '/'
    ensures HostStart(s, i) < pos
  {
    var h := HostStart(s, i);
    assert h - 1 <= pos;
    assert pos != h - 1 by {
      assert s[h - 2] == '/';
    }
  }

  /** No slash follows the last slash. */
  lemma NoSlashAfterLast(s: string)
    ensures forall m :: LastIndex(s, "/") < m < |s| ==> s[m] != '/'
  {
    forall m | LastIndex(s, "/") < m < |s|
      ensures s[m] != '/'
    {
      SlashAt(s, m);
    }
  }

  /** A URL with a base has a match somewhere. */
  lemma SomeMatch(s: string) returns (i: int)
    requires BaseMatch(s).Some?
    ensures MatchAt(s, i)
  {
    BaseMatchGroup(s);
    i :| LeftmostGroup(s, BaseMatch(s).value, i);
  }

  /** Cutting a URL past the first host character of a match and then
      appending an href gives an http(s) URL ending with the href. */
  lemma PrefixThenHref(s: string, i: int, n: int, href: string)
    requires MatchAt(s, i) && HostStart(s, i) < n <= |s|
    ensures BaseMatch(s[..n] + href).Some? && EndsWith(s[..n] + href, href)
  {
    PrefixKeepsMatch(s, i, n);
    MatchSurvivesAppend(s[..n], href);
    AppendEndsWith(s[..n], href);
  }

  /** Cutting a URL past the first host character of a match keeps the
      match. */
  lemma PrefixKeepsMatch(s: string, i: int, n: int)
    requires MatchAt(s, i) && HostStart(s, i) < n <= |s|
    ensures BaseMatch(s[..n]).Some?
  {
    var h := HostStart(s, i);
    assert s[..n][i..h + 1] == s[i..h + 1];
    MatchTransfer(s, i, s[..n], i);
    FirstMatchOf(s[..n]);
  }

  /** Appending `t` leaves a string ending with `t`. */
  lemma AppendEndsWith(s: string, t: string)
    ensures EndsWith(s + t, t)
  {
    assert (s + t)[|s + t| - |t|..] == t;
  }

  /** Any match makes `BaseMatch` succeed. */
  lemma FirstMatchOf(s: string)
    requires exists i :: MatchAt(s, i)
    ensures BaseMatch(s).Some?
  {
  }

  /** A URL that matches at its start and whose host runs up to index
      `k` has the group `s[..k]`. */
  lemma BaseMatchAtStart(s: string, k: int)
    requires MatchAt(s, 0) && HostStart(s, 0) < k <= |s|
    requires '/' !in s[HostStart(s, 0)..k]
    requires k == |s| || s[k] == '/'
    ensures BaseMatch(s) == Some(s[..k])
  {
    var h := HostStart(s, 0);
    assert forall m :: h <= m < k ==> s[m] == s[h..k][m - h];
  }

  /** A slash at `p` with none after it is the last slash. */
  lemma LastSlashAt(s: string, p: int)
    requires 0 <= p < |s| && s[p] == '/'
    requires '/' !in s[p + 1..]
    ensures LastIndex(s, "/") == p
  {
    SlashAt(s, p);
    assert forall m :: p < m < |s| ==> s[m] == s[p + 1..][m - p - 1];
    SlashAt(s, LastIndex(s, "/"));
  }

  /** An href without a colon names no scheme. */
  lemma NoColonNotAbsolute(href: string)
    requires ':' !in href
    ensures !IsAbsoluteUrl(href)
  {
    ClassifiersByCharacter(href);
  }

  /* The examples below take their URLs as parameters fixed by `requires`,
     which keeps the verifier from evaluating the whole resolution on
     literal strings; each step is a general lemma whose `requires` the
     example meets character by character. */

  /** `s` opens with the characters of `p` and has more after them. */
  predicate OpensWith(s: string, p: string) {
    |p| < |s| && forall m :: 0 <= m < |p| ==> s[m] == p[m]
  }

  /** `s` opens with `https://` or `http://` and a character other than
      `/`. */
  predicate HttpOpening(s: string) {
    || (OpensWith(s, "https://") && s[8] != '/')
    || (OpensWith(s, "http://") && s[7] != '/')
  }

  /** An href whose characters make it path-relative: not empty, no colon,
      and a first character other than `#` and `/`. */
  predicate PathRelativeChars(href: string) {
    href != "" && href[0] != '#' && href[0] != '/' && forall m :: 0 <= m < |href| ==> href[m] != ':'
  }

  /** An http(s) opening is a base match at the start of the URL. */
  lemma OpeningHasBase(s: string)
    requires HttpOpening(s)
    ensures MatchAt(s, 0) && BaseMatch(s).Some?
  {
    assert s[0] == 'h' && s[1] == 't' && s[2] == 't' && s[3] == 'p';
    assert MatchAt(s, 0);
    FirstMatchOf(s);
  }

  /** With an http(s) opening and a host that runs up to index `k`, the
      group is `s[..k]`. */
  lemma OriginUpTo(s: string, k: int)
    requires OpensWith(s, "https://") && s[8] != '/'
    requires 8 < k <= |s| && (k == |s| || s[k] == '/')
    requires forall m :: 8 <= m < k ==> s[m] != '/'
    ensures BaseMatch(s) == Some(s[..k])
  {
    assert s[0] == 'h' && s[1] == 't' && s[2] == 't' && s[3] == 'p' && s[4] == 's';
    assert MatchAt(s, 0) && HostStart(s, 0) == 8;
    assert forall m :: 8 <= m < k ==> s[8..k][m - 8] == s[m];
    BaseMatchAtStart(s, k);
  }

  /** An href with `://` at index `j` names a scheme. */
  lemma SeparatorAt(href: string, j: int)
    requires 0 <= j < |href| - 2 && href[j] == ':' && href[j + 1] == '/' && href[j + 2] == '/'
    ensures IsAbsoluteUrl(href)
  {
    ClassifiersByCharacter(href);
  }

  /** An href whose characters are all different from `h` and `H` has no
      http(s) base. */
  lemma NoLetterH(href: string)
    requires forall m :: 0 <= m < |href| ==> href[m] != 'h' && href[m] != 'H'
    ensures BaseMatch(href).None?
  {
    assert forall i :: !MatchAt(href, i);
  }

  /** The empty href resolves to an http(s) page URL itself. */
  lemma EmptyOnOpening(s: string)
    requires HttpOpening(s)
    ensures GetFinalUrl("", s) == Success(s)
  {
    OpeningHasBase(s);
  }

  /** An anchor without a colon is appended to an http(s) page URL. */
  lemma AnchorOnOpening(href: string, s: string)
    requires HttpOpening(s)
    requires href != "" && href[0] == '#' && forall m :: 0 <= m < |href| ==> href[m] != ':'
    ensures GetFinalUrl(href, s) == Success(s + href)
  {
    OpeningHasBase(s);
    ClassifiersByCharacter(href);
    EmptyAndAnchorHrefs(href, s);
  }

  /** A site-relative href without a colon is appended to the origin
      `s[..k]` of an https page URL. */
  lemma SiteRelativeOnOpening(href: string, s: string, k: int)
    requires OpensWith(s, "https://") && s[8] != '/'
    requires 8 < k <= |s| && (k == |s| || s[k] == '/')
    requires forall m :: 8 <= m < k ==> s[m] != '/'
    requires href != "" && href[0] == '/' && forall m :: 0 <= m < |href| ==> href[m] != ':'
    ensures GetFinalUrl(href, s) == Success(s[..k] + href)
  {
    OriginUpTo(s, k);
    ClassifiersByCharacter(href);
    SiteRelativeUsesOrigin(href, s);
  }

  /** A path-relative href replaces what follows the last slash when
      that slash is a single one. */
  lemma ReplacesLastSegment(href: string, s: string, p: int)
    requires HttpOpening(s) && PathRelativeChars(href)
    requires 0 < p < |s| && s[p] == '/' && s[p - 1] != '/'
    requires forall m :: p < m < |s| ==> s[m] != '/'
    ensures GetFinalUrl(href, s) == Success(s[..p + 1] + href)
  {
    OpeningHasBase(s);
    ClassifiersByCharacter(href);
    assert forall m :: p < m < |s| ==> s[p + 1..][m - p - 1] == s[m];
    LastSlashAt(s, p);
    PathRelativeResolution(href, s);
  }

  /** A path-relative href on a page URL whose last slash is the second of
      a pair (the `//` of `://`, or one inside the path) is joined onto the
      whole URL with one slash. */
  lemma JoinsAfterPair(href: string, s: string, p: int)
    requires HttpOpening(s) && PathRelativeChars(href)
    requires 0 < p < |s| - 1 && s[p] == '/' && s[p - 1] == '/'
    requires forall m :: p < m < |s| ==> s[m] != '/'
    ensures GetFinalUrl(href, s) == Success(s + "/" + href)
  {
    OpeningHasBase(s);
    ClassifiersByCharacter(href);
    assert forall m :: p < m < |s| ==> s[p + 1..][m - p - 1] == s[m];
    LastSlashAt(s, p);
    assert s[|s| - 1..][0] == s[|s| - 1] != '/';
    PathRelativeResolution(href, s);
  }

  /** An href with `://` at `j` and a base match at `i` is returned
      verbatim on an http(s) page URL. */
  lemma AbsoluteOnOpening(href: string, s: string, i: int, j: int)
    requires HttpOpening(s) && MatchAt(href, i)
    requires 0 <= j < |href| - 2 && href[j] == ':' && href[j + 1] == '/' && href[j + 2] == '/'
    ensures GetFinalUrl(href, s) == Success(href)
  {
    OpeningHasBase(s);
    SeparatorAt(href, j);
    FirstMatchOf(href);
    AbsoluteHrefVerbatim(href, s, s);
  }

  /** An href with `://` at `j` but no letter `h` is rejected on an
      http(s) page URL. */
  lemma RejectedOnOpening(href: string, s: string, j: int)
    requires HttpOpening(s)
    requires 0 <= j < |href| - 2 && href[j] == ':' && href[j + 1] == '/' && href[j + 2] == '/'
    requires forall m :: 0 <= m < |href| ==> href[m] != 'h' && href[m] != 'H'
    ensures GetFinalUrl(href, s).Failure?
  {
    OpeningHasBase(s);
    SeparatorAt(href, j);
    NoLetterH(href);
  }

  /** Unit-test example: the empty href resolves to the page URL. */
  lemma EmptyHrefExample(s: string)
    requires s == "https://www.a.com"
    ensures GetFinalUrl("", s) == Success("https://www.a.com")
  {
    EmptyOnOpening(s);
  }

  /** Unit-test example: an anchor is appended to the page URL. */
  lemma AnchorExample(s: string, href: string)
    requires s == "https://www.a.com/x" && href == "#anchor"
    ensures GetFinalUrl(href, s) == Success("https://www.a.com/x#anchor")
  {
    assert s + href == "https://www.a.com/x#anchor";
    AnchorOnOpening(href, s);
  }

  /** Unit-test example: a site-relative href replaces the whole path. */
  lemma SiteRelativeExample(s: string, href: string)
    requires s == "https://www.a.com/x/y" && href == "/relurl1"
    ensures GetFinalUrl(href, s) == Success("https://www.a.com/relurl1")
  {
    assert s[..17] + href == "https://www.a.com/relurl1";
    SiteRelativeOnOpening(href, s, 17);
  }

  /** Unit-test example: a path-relative href replaces the last segment. */
  lemma PathRelativeExample(s: string, href: string)
    requires s == "https://www.a.com/x/y" && href == "relurl1"
    ensures GetFinalUrl(href, s) == Success("https://www.a.com/x/relurl1")
  {
    assert s[..20] + href == "https://www.a.com/x/relurl1";
    ReplacesLastSegment(href, s, 19);
  }

  /** Unit-test example: on a bare origin a path-relative href is joined
      with a slash. */
  lemma BareOriginExample(s: string, href: string)
    requires s == "https://www.a.com" && href == "relurl1"
    ensures GetFinalUrl(href, s) == Success("https://www.a.com/relurl1")
  {
    assert s + "/" + href == "https://www.a.com/relurl1";
    JoinsAfterPair(href, s, 7);
  }

  /** Unit-test example: an absolute http(s) href is kept as it is. */
  lemma AbsoluteHrefExample(s: string, href: string)
    requires s == "https://www.b.com/x" && href == "https://www.a.com"
    ensures GetFinalUrl(href, s) == Success("https://www.a.com")
  {
    assert MatchAt(href, 0);
    AbsoluteOnOpening(href, s, 0, 5);
  }

  /** Unit-test example: a page URL that is not http(s) is rejected. */
  lemma NonHttpSourceExample(s: string)
    requires s == "ftp://www.a.com"
    ensures GetFinalUrl("", s).Failure?
  {
    NoLetterH(s);
  }

  /** Unit-test example: an href with a scheme other than http(s) is
      rejected. */
  lemma NonHttpHrefExample(s: string, href: string)
    requires s == "https://www.a.com" && href == "ws://www.a.com"
    ensures GetFinalUrl(href, s).Failure?
  {
    RejectedOnOpening(href, s, 2);
  }

  /** The scheme check is an unanchored search: an href of another scheme
      that carries an http(s) URL further on passes it and is returned
      verbatim. */
  lemma EmbeddedHttpPassesSchemeCheck(s: string, href: string)
    requires s == "https://www.a.com" && href == "ftp://a.com/?to=http://b.com"
    ensures GetFinalUrl(href, s) == Success(href)
  {
    assert href[3] == ':' && href[4] == '/' && href[5] == '/';
    assert MatchAt(href, 16);
    AbsoluteOnOpening(href, s, 16, 3);
  }

  /** The code's two-slash test looks for the last `//` anywhere in the page
      URL, so a `//` inside the path stops a path-relative href from
      replacing the last segment: it is appended instead. */
  lemma DoubleSlashInPathAppends(s: string, href: string)
    requires s == "http://a.com/b//c" && href == "x"
    ensures GetFinalUrl(href, s) == Success("http://a.com/b//c/x")
  {
    assert s + "/" + href == "http://a.com/b//c/x";
    JoinsAfterPair(href, s, 15);
  }

  /* ---------------------------------------------------------------- */
  /* Probe outcome                                                     */
  /* ---------------------------------------------------------------- */

  /** The status recorded when a probe could not reach the URL at all. */
  const FailedProbeStatus: int := 999

  /** What a probe reports. */
  datatype Validity = Validity(isValid: bool, statusCode: int)

  /** The outcome rule of `findUrlValidity`, given what the GET returned:
      `None` when the request failed, the status code otherwise. A link is
      valid exactly when it answered below 300; the recorded status is the
      answer's, or 999 when there was none. */
  function FindUrlValidity(response: Option<int>): (r: Validity)
    ensures r.isValid <==> response.Some? && response.value < 300
    ensures r.statusCode == response.GetOr(FailedProbeStatus)
  {
    match response
    case None => Validity(false, FailedProbeStatus)
    case Some(status) =>
      if status >= 300 then Validity(false, status) else Validity(true, status)
  }
}
